=== FILE: README.md ===
# Network automation compliance core in Dafny

This project models the comparison logic of a network-automation toolkit that
audits Cisco IOS devices against a security-hardening baseline (a STIG). Device
sessions, files and the web front end are outside the model. Whatever they
produce becomes a parameter: the running configuration text, the four
`show access-list` outputs, the golden lines and the inventory records.

The modules follow the programs they model:

- `Text` (text.dfy) holds the Python string operations the programs rely on:
  - `str.strip` over the Unicode whitespace set;
  - `splitlines`, `in` as a substring test, `startswith`, `replace(p, "")`,
    `lstrip` of digits and ASCII lower-casing.
- `Select` (select.dfy) holds an order-keeping filter-and-map, `FilterMap`. Its
  specification `IsFilterMap` says that the output lists `f(x)` for exactly the
  kept elements, in input order.
- `Baseline` (baseline.dfy) is the flask handler's STIG/ACL matcher:
  - golden entries carry a `satisfied` flag;
  - a substring test runs against the running configuration;
  - two always-met header aliases per list;
  - the `, wildcard bits` cleanup of ACL output;
  - the combined verdict and the first-device-answers behaviour of the
    request.
- `Sectioned` (sectioned.dfy) is the JSON-sectioned variant of the handler:
  - the six rule categories as anchored patterns;
  - the section loop as written, which always raises once it has a running
    line to look at;
  - the intended rule, below;
  - the per-section report text;
  - the ACL hit-counter cleanup;
  - the aggregation.

  The intended rule is an interpretation of a loop that cannot run. A command
  is met when its stripped text is a running line, or when it belongs to a
  rule category and some running line belongs to the same category.
- `Differ` (differ.dfy) is the command-line STIG checker. It extracts the
  hostname with the `hostname\nhostname\s+(\S+)` search, then runs the ordered
  line differ, with its found/identical/mismatch verdicts and its skip list.
- `Interfaces` (interfaces.dfy) is the access-port audit:
  - a line-by-line parser into an insertion-ordered interface table;
  - the list of access ports that lack a description or are shut down.
- `Inventory` (inventory.dfy) is the enterprise-device filter of the inventory
  handler.

Regular expressions are written as predicates with the same meaning:
- `.` is any character but `\n`;
- a trailing `.*` accepts anything;
- `re.match` is anchored at the start and `re.search` is leftmost;
- `\s` is the `str.isspace` set and `\d` is an ASCII digit.

## Model

| member | source | states |
|---|---|---|
| Text.Strip | jason_parse.py:118 | the result has no leading or trailing whitespace and is what remains of the input after some whitespace prefix and suffix are cut |
| Text.StripAround | interface_info.py:6 | stripping whitespace from around a trimmed non-empty text gives back that text |
| Text.SplitLines | jason_parse.py:117 | no piece holds a line boundary |
| Text.SplitLinesOfJoin | jason_parse.py:117 | splitting the newline-join of break-free lines gives those lines back, minus a trailing empty one |
| Text.RemoveAll | flask/stig_check_flask.py:125 | removing a phrase never makes the text longer |
| Text.RemoveAllKeepsPlain | flask/stig_check_flask.py:125 | removing a phrase leaves alone any prefix that does not hold the phrase's first character |
| Text.RemoveAllAtFront | flask/stig_check_flask.py:125 | an occurrence of the phrase at the front is removed |
| Baseline.LoadGolden | flask/stig_check_flask.py:36-54 | one entry per file line, stripped and with its flag unset |
| Baseline.Check | flask/stig_check_flask.py:109-115 | the missing list holds, in template order, exactly the texts that are neither an alias nor a substring of the output, and each flag becomes set exactly when its entry is met |
| Baseline.AliasNeverMissing | flask/stig_check_flask.py:110-111 | the two archive-path aliases (or the two ACL header spellings) are never reported missing |
| Baseline.MissingIffAbsent | flask/stig_check_flask.py:112-115 | a template text that is not an alias is missing exactly when it does not occur in the output |
| Baseline.BlankNeverMissing | flask/stig_check_flask.py:112 | a blank template line is always met, because the empty string occurs in every output |
| Baseline.ExtendingOutputKeepsMet | flask/stig_check_flask.py:112 | more device output can only shrink the missing list |
| Baseline.FlagsAgreeWithMissing | flask/stig_check_flask.py:109-115 | starting from unset flags, an entry's flag is set exactly when its text is not in the missing list |
| Baseline.CheckIdempotent | flask/stig_check_flask.py:109-115 | a second pass over the flagged entries gives the same missing list and flags |
| Baseline.NothingMissingIffAllMet | flask/stig_check_flask.py:109-117 | the missing list is empty exactly when every entry is an alias or occurs in the output |
| Baseline.WithHeader | flask/stig_check_flask.py:117-118 | the banner is put in front only when something is missing, and the rest is the missing list itself |
| Baseline.WildcardPhraseIgnored | flask/stig_check_flask.py:125-130 | once `, wildcard bits` is removed from the ACL output, a template rule written without that phrase is met |
| Baseline.WildcardExample | flask/stig_check_flask.py:125-130 | the same for the concrete output line `10 permit 10.0.0.0, wildcard bits 0.0.0.255` |
| Baseline.Verdict | flask/stig_check_flask.py:195-200 | the compliant text comes back exactly when the combined list is empty, and otherwise the text starts with the not-compliant preamble |
| Baseline.VerdictListsEverything | flask/stig_check_flask.py:199-200 | every entry of the combined list, headers included, can be found in the not-compliant text |
| Baseline.VerdictOne | flask/stig_check_flask.py:198-200 | a single missing entry follows the not-compliant preamble directly, with no separator before or after it |
| Baseline.VerdictAppend | flask/stig_check_flask.py:200 | each further entry comes after the earlier ones behind one newline, so the report lists the combined list in order, one entry per line |
| Baseline.Report | flask/stig_check_flask.py:193-200 | the page shows the compliant sentence exactly when no list reports anything, and otherwise opens with the not-compliant preamble |
| Baseline.ReportCompliantIff | flask/stig_check_flask.py:193-200 | a device is reported compliant exactly when every STIG line and every line of ACLs 1, 2, 5 and 55 is met |
| Baseline.FirstReachedSpec | flask/stig_check_flask.py:63-100 | some device is reached exactly when some attempt succeeded, and the one chosen is the first success |
| Baseline.Submit | flask/stig_check_flask.py:56-203 | the request produces a report exactly when some device answered |
| Baseline.SubmitFirstReached | flask/stig_check_flask.py:63-203 | the request returns a report exactly when some device answered, and that report is for the first device that answered |
| Sectioned.RunningSet | jason_parse.py:117-118 | every element of the running view is non-empty and trimmed |
| Sectioned.RunningSetOfLines | jason_parse.py:117-118 | the running view of newline-joined lines is the set of their non-blank stripped forms |
| Sectioned.RunningSetOrderFree | jason_parse.py:118 | the running view depends only on which lines occur, not on their order or repetition |
| Sectioned.Classify | jason_parse.py:134-139 | a command gets a category exactly when one of the six anchored patterns matches it |
| Sectioned.CategoriesExclusive | jason_parse.py:134-139 | no command matches two categories |
| Sectioned.DomainSpellings | jason_parse.py:134 | both the hyphenated and the spaced domain-name spellings fall in the domain category |
| Sectioned.NtpVariants | jason_parse.py:138 | key 31 or 32 with sha1 or sha2 falls in the NTP category, whatever follows |
| Sectioned.LoggingHostVariants | jason_parse.py:139 | unescaped dots in the host address accept any non-newline character, and ports 10514 and 10516 both match |
| Sectioned.NeverAllSix | jason_parse.py:142 | no command matches all six patterns, so the guard of line 142 holds for every command |
| Sectioned.LookupOwnKeys | jason_parse.py:114-131 | every key taken from the document finds its own section, so the not-found branch never fires |
| Sectioned.SectionAsWrittenOutcome | jason_parse.py:131-147 | as written, one section raises the `any()` TypeError as soon as it has a command and the running view has a line; otherwise it reports nothing |
| Sectioned.SectionsAsWritten | jason_parse.py:124-151 | as written, the section loop never records a missing command, cannot fail when the running view is empty, and can fail only with the `any()` TypeError |
| Sectioned.SectionsAsWrittenOutcome | jason_parse.py:124-151 | as written, the section loop raises exactly when the running view is non-empty and some section has a command, and reports nothing otherwise |
| Sectioned.SectionMissing | jason_parse.py:129-147 | under the intended rule, a section's missing list is its unmet stripped commands in document order |
| Sectioned.SectionMissingIff | jason_parse.py:131-147 | a command is listed missing exactly when it is some command of the section and is unmet |
| Sectioned.CategoryCommandMet | jason_parse.py:134-147 | a command of a category is met exactly when it is itself a running line or some running line is of that category |
| Sectioned.NtpCommandsInterchangeable | jason_parse.py:138 | any running NTP key line meets any NTP key command, and without one the command is missing unless present verbatim |
| Sectioned.MissingBySectionSpec | jason_parse.py:124-151 | the sections in the report are exactly those with something missing, in document order, each with its missing list |
| Sectioned.NoSectionMissingIffAllMet | jason_parse.py:124-151 | no section is reported exactly when every command of every section is met |
| Sectioned.FormatReport | jason_parse.py:153-162 | the report has one line per reported section plus one per missing command |
| Sectioned.FormatReportShape | jason_parse.py:153-162 | the report is empty exactly when no section is reported, and otherwise starts with the first section's header |
| Sectioned.FormatReportAppend | jason_parse.py:155-159 | sections are formatted one after another: the report of two lists of sections is the first's report followed by the second's |
| Sectioned.FormatReportOne | jason_parse.py:156-158 | one section's entry is the line `\nSection <key>: Missing commands:` followed by each missing command behind a two-space indent, in order |
| Sectioned.CleanAclLine | jason_parse.py:170-174 | a blank line after cleanup is the IndexError; otherwise the result is trimmed; when the line ends in `)` it is the stripped text before the first `(` (the whole text when there is none), and otherwise the line is left whole |
| Sectioned.CleanAclLineShape | jason_parse.py:170-174 | an enumerated rule with a trailing hit counter cleans to the rule itself |
| Sectioned.CleanAclEntries | jason_parse.py:166-246 | a cleanup that succeeds keeps one entry per output line |
| Sectioned.CleanAclEntriesSpec | jason_parse.py:170-174 | the cleanup succeeds exactly when every line cleans, and then keeps one entry per line |
| Sectioned.CleanupAsWrittenIsNoOp | jason_parse.py:166-174 | as written, the cleanup runs over a freshly emptied list and so does nothing |
| Sectioned.Report | jason_parse.py:116-269 | under the intended rule, the page shows the compliant sentence exactly when no section and no ACL reports anything, and otherwise opens with the not-compliant preamble |
| Sectioned.ReportAsWritten | jason_parse.py:116-269 | as written, the only failure is the `any()` TypeError, and a report that comes back is compliant exactly when no ACL reports anything |
| Sectioned.ReportCompliantIff | jason_parse.py:262-269 | under the intended rule, a device is compliant exactly when every section command and every ACL line is met |
| Sectioned.ReportAsWrittenOutcome | jason_parse.py:116-269 | as written, a device raises whenever it has a running line and the document has a command, and otherwise only the ACLs decide the verdict |
| Sectioned.CrashExample | jason_parse.py:141-147 | a one-command document against a device whose only line is that command raises as written, but is compliant under the intended rule |
| Sectioned.Submit | jason_parse.py:64-272 | with the failure branch corrected, the request produces a report exactly when some device answered |
| Sectioned.SubmitAsWritten | jason_parse.py:64-107 | as written, the request returns nothing exactly when every device failed with one of the four named exceptions |
| Sectioned.SubmitAsWrittenOtherFailure | jason_parse.py:103-107 | an unexpected session failure before any device answers makes the request raise, because it joins an exception object |
| Sectioned.SubmitAsWrittenFirstReached | jason_parse.py:64-272 | as written, the first device that answers after sessions that failed only with the four named exceptions gets the as-written report |
| Sectioned.SubmitFirstReached | jason_parse.py:64-272 | with the failure branch corrected, the request reports on the first device that answered, and returns nothing when none did |
| Differ.ExtractHostname | stig_check.py:67-72 | a hostname that is found is a non-empty run of non-space characters |
| Differ.ExtractHostnameLeftmost | stig_check.py:67-72 | no hostname is found exactly when no position matches the pattern, and a found one is the capture at the leftmost matching position |
| Differ.HostnameRoundTrip | stig_check.py:67-72 | after `hostname`, a newline, `hostname` and whitespace, the next run of non-space characters is the hostname |
| Differ.NoHostnameWithoutPrefix | stig_check.py:67-71 | without the two-line `hostname` prefix there is no match |
| Differ.CompareLine | stig_check.py:111-134 | one unfound golden line's turn ends at its first mismatch or at the end of the device's lines, leaving the loop's invariant for the next golden line |
| Differ.Diff | stig_check.py:93-134 | see below the table |
| Differ.RepeatedLineOutcome | stig_check.py:101-134 | for golden lines `B`, `A`, `B` against device lines `B`, `B`, the contract admits only `Found` for line 1, a mismatch of line 2 with device line 1, and line 3 identical to device line 2 |
| Differ.AllFoundWhenPresent | stig_check.py:101-106 | when the golden lines are distinct and all occur in the device file, every golden line is reported found and nothing is compared |
| Interfaces.InterfaceNameOf | interface_info.py:7 | `interface`, whitespace and a name yield that name |
| Interfaces.SwitchportTextOf | interface_info.py:9 | the recorded switchport text is the access-vlan prefix and the longest run of digits after it |
| Interfaces.DescriptionTextOf | interface_info.py:8 | `description`, whitespace and a trimmed text yield that text |
| Interfaces.Lookup | interface_info.py:14-22 | a name is found exactly when it is in the table, together with its stored settings |
| Interfaces.PutLookup | interface_info.py:14 | storing a name's settings changes what that name finds and nothing else |
| Interfaces.PutKeepsPlace | interface_info.py:14 | re-storing a known interface keeps the order of the table |
| Interfaces.PutAppendsNew | interface_info.py:14 | a new interface is appended at the end, as dictionary insertion order does |
| Interfaces.Step | interface_info.py:5-22 | one line keeps the table free of repeated names and the current interface in the table |
| Interfaces.Parse | interface_info.py:5-22 | the parsed table lists each interface once, and the current interface is one of them |
| Interfaces.InterfaceLineResets | interface_info.py:12-14 | an interface line opens that interface with fresh settings and leaves the other entries alone |
| Interfaces.OtherLineStaysInBlock | interface_info.py:16-22 | any other line stays in the current block and changes no other interface |
| Interfaces.SwitchportLineSets | interface_info.py:17-18 | an access-vlan line inside a block records the matched text |
| Interfaces.DescriptionLineSets | interface_info.py:19-20 | a description line inside a block records its text |
| Interfaces.ShutdownMarks | interface_info.py:21-22 | a bare `shutdown` line inside a block marks the interface shut down |
| Interfaces.NoShutdownIgnored | interface_info.py:10 | a `no shutdown` line changes nothing |
| Interfaces.ShutdownSticks | interface_info.py:12-22 | a shut-down mark is only cleared by reopening that interface |
| Interfaces.PreambleIgnored | interface_info.py:16 | lines before the first interface line have no effect |
| Interfaces.RunAppend | interface_info.py:5 | parsing a concatenation parses the second part from the state the first part left |
| Interfaces.ParseNames | interface_info.py:5-14 | the table holds exactly the interfaces opened by some line of the text |
| Interfaces.NonCompliantPorts | interface_info.py:25-27 | at most one port is listed per table entry |
| Interfaces.NonCompliantPortsIff | interface_info.py:25-27 | a port is listed exactly when it is an access port without a description or shut down |
| Interfaces.NonCompliantPortsOrdered | interface_info.py:25-27 | the listed ports keep the table's order |
| Inventory.EnterpriseDevices | stig_push/netmri_device_list.py:39-50 | the addresses are those of the devices on the network, of the selected type and not excluded, in inventory order, and an address is listed exactly when such a device has it |
| Inventory.ExcludedIgnoresCase | stig_push/netmri_device_list.py:40 | letter case does not affect the exclusion |
| Inventory.ExcludedAnywhere | stig_push/netmri_device_list.py:40-46 | a name holding an excluded word anywhere, in any case, is excluded |

`Differ.Diff` walks the golden lines in order. What its contract states:

- A golden line that occurs in the device file, and did not occur earlier in the
  golden file, gets exactly one `Found` verdict and no other verdict. This is
  the shared set from which found lines are removed.
- Any other line compares device lines from a cursor that never moves back:
  - lines starting with the hostname, `configure terminal` or `Enter` are
    passed over;
  - each compared device line yields `Identical` or `Mismatch` according to
    equality;
  - a mismatch ends that golden line's turn.
- A golden line whose turn ended without a mismatch ran the device file to its
  end.
- A golden line is compared only after the turn of every earlier golden line
  has ended. So the cursor is never handed on while a line is still open.
- Once every golden line's turn has ended, the cursor rests just after the last
  mismatch, or at the start if every line was found.
- Verdicts come out sorted by golden line number.

Together these clauses fix the verdicts. `Differ.RepeatedLineOutcome` works one
case through: a golden line repeated after a missing one.

## Left out

- SSH sessions, the Flask request and templates, file reads and writes, file
  renames and moves, and `print` output are outside the model. Their results
  are parameters. The per-device outcome of a session is an `Attempt`:
  - a recognised failure, meaning one of the four named exceptions;
  - any other failure;
  - the captured output.
- The inventory service calls and authentication are left out. The device list
  is a parameter.
- `VirtualNetworkID` is compared as a string. The record's own type is not
  part of this model.
- Python's Unicode meanings of `\d` and of `re.IGNORECASE` are left out. `\d` is
  applied to the device's running configuration, and case folding to inventory
  device names. The model assumes both are ASCII, so `\d` is an ASCII digit and
  case folding is ASCII lower-casing. Examples not covered are non-ASCII digits,
  and `ſ` or the Kelvin sign matching `s` or `k`.
- Differ.Diff: the hostname is a parameter. Without a match, the script uses an
  unbound or stale `hostname` (stig_check.py:72-80), so that case is left out.
- Differ.Diff: the golden and device files are given as lists of lines, so
  `readlines` itself is not modelled.
- Sectioned.SectionsAsWrittenOutcome requires distinct section keys. A JSON
  object with repeated keys keeps only the last one, and that is not modelled.
  The same requirement sits on the other lemmas that walk the document.
- The ACL cleanup loops for lists 2 and 55 index `acl5` (jason_parse.py:196,
  244). As written they never run, because their own list is empty. They are
  modelled by `CleanupAsWrittenIsNoOp` and the cleanup on a list, not line by
  line.
- interface_info.py reads a variable `interfaces` that it never defines. The
  configuration text is a parameter of `Interfaces.Parse`.
- interface_info.py also calls `re.match` without importing `re`. The model
  treats the patterns as if the module were imported.
- Interfaces.DescriptionText: requires a trimmed line, which the loop always
  gives it. A backtracking match on untrimmed text is not modelled.
- Text.SplitLines: the contract states only that no piece holds a line
  boundary. The exact pieces are pinned down by `Text.SplitLinesOfJoin` for
  newline-joined break-free lines, not for every text.
- Text.RemoveAll: the contract states only the length bound. What is removed is
  stated by `Text.RemoveAllKeepsPlain` and `Text.RemoveAllAtFront`, not in
  general.
- Baseline.Submit: the contract states when a report comes back.
  `Baseline.SubmitFirstReached` states which device it is for.
- Sectioned.Submit: the contract states when a report comes back.
  `Sectioned.SubmitFirstReached` states which device it is for.
- The second print of every interface (interface_info.py:28) is output only.

## Findings

| source | as written | input that shows it | evidently intended | confidence | as-written member | corrected member |
|---|---|---|---|---|---|---|
| jason_parse.py:141-147 | line 142's guard holds for every command, because no command matches all six patterns; line 143 then calls `any()` with six arguments, which raises TypeError | section `"1"` holding `ip ssh version 2`, against a running configuration whose only line is `ip ssh version 2` | a command is met by its own text or by any running line of its rule category; the exact rule is an interpretation | not executed | Sectioned.CrashExample | Sectioned.ReportCompliantIff |
| jason_parse.py:103-107 | the catch-all failure branch joins the exception object with `"\n".join`, which raises TypeError instead of moving on to the next device | an address list whose first device fails with an error that is not one of the four named ones | record the failure and try the next device | not executed | Sectioned.SubmitAsWrittenOtherFailure | Sectioned.SubmitFirstReached |

=== FILE: baseline.dfy ===
/** The golden-line matcher of the web form handler: every golden STIG line
    and every golden ACL line is looked up in the text the device returned,
    the lines not found are collected under a header, and the five lists
    decide the verdict shown to the operator. */
module Baseline {
  import opened Wrappers
  import opened Text
  import opened Select

  /** One golden line and its flag ('true' / 'false' in the handler). */
  datatype Entry = Entry(text: string, satisfied: bool)

  /** Two literal spellings that satisfy an entry whatever the device returned. */
  datatype Aliases = Aliases(first: string, second: string)

  /** The result of one pass over a golden list. */
  datatype Pass = Pass(missing: seq<string>, entries: seq<Entry>)

  /** What the device returned: the echo of the bulk show commands, and the
      output of `show access-list N` for the four ACLs checked. */
  datatype DeviceOutput = DeviceOutput(runningConfig: string, acl1: string, acl2: string, acl5: string, acl55: string)

  /** The five golden lists, as loaded from the golden files. */
  datatype Golden = Golden(stig: seq<Entry>, acl1: seq<Entry>, acl2: seq<Entry>, acl5: seq<Entry>, acl55: seq<Entry>)

  /** How a session failed: one of the four exceptions the handlers name
      (authentication, timeout, end of file, SSH), or any other. */
  datatype Failure = NamedFailure | OtherFailure

  /** One device of the form: either the session raised or it returned
      output. */
  datatype Attempt = Unreachable(failure: Failure) | Reached(output: DeviceOutput)

  const StigAliases := Aliases("path flash:/archived_configs", "path bootflash:/archived_configs")

  /** The declaration line of ACL `n` in both spellings IOS uses. */
  function AclAliases(n: string): Aliases {
    Aliases("ip access-list standard " + n, "Standard IP access list " + n)
  }

  const StigHeader := "//////// Missing the following commands \\\\\\\\\\\\\\\\"

  function AclHeader(n: string): string {
    "\n\n//////// Missing the following from ACL " + n + " \\\\\\\\\\\\\\\\"
  }

  const CompliantText := "Device is STIG compliant"

  const NotCompliantPrefix :=
    "Device is not STIG compliant, revisit the IOS_Template and check again\nThe device is missing the following commands\n\n"

  /** The phrase IOS inserts after a network address in ACL output. */
  const WildcardPhrase := ", wildcard bits"

  /** A golden file as `readlines()` returns it becomes entries, each line
      stripped and flagged unsatisfied. */
  function LoadGolden(fileLines: seq<string>): (golden: seq<Entry>)
    ensures |golden| == |fileLines|
    ensures forall i :: 0 <= i < |golden| ==> !golden[i].satisfied && IsTrimmed(golden[i].text)
    ensures forall i :: 0 <= i < |golden| ==> golden[i].text == Strip(fileLines[i])
  {
    seq(|fileLines|, i requires 0 <= i < |fileLines| => Entry(Strip(fileLines[i]), false))
  }

  /** An entry is met by an alias or by occurring anywhere in the device text
      (a substring test, not a line comparison). */
  predicate Satisfied(text: string, aliases: Aliases, haystack: string) {
    text == aliases.first || text == aliases.second || Contains(haystack, text)
  }

  function Missed(aliases: Aliases, haystack: string): Entry -> bool {
    (e: Entry) => !Satisfied(e.text, aliases, haystack)
  }

  function TextOf(e: Entry): string {
    e.text
  }

  /** One pass of the matching loop: the missing list is the texts of the
      unmet entries in golden order and multiplicity, and each flag is set
      when its entry is met and otherwise left as it was. */
  function Check(golden: seq<Entry>, aliases: Aliases, haystack: string): (p: Pass)
    ensures IsFilterMap(p.missing, golden, Missed(aliases, haystack), TextOf)
    ensures |p.entries| == |golden|
    ensures forall i :: 0 <= i < |golden| ==> p.entries[i].text == golden[i].text
    ensures forall i :: 0 <= i < |golden| ==>
              p.entries[i].satisfied == (golden[i].satisfied || Satisfied(golden[i].text, aliases, haystack))
  {
    FilterMapSpec(golden, Missed(aliases, haystack), TextOf);
    Pass(FilterMap(golden, Missed(aliases, haystack), TextOf),
         seq(|golden|, i requires 0 <= i < |golden| =>
               golden[i].(satisfied := golden[i].satisfied || Satisfied(golden[i].text, aliases, haystack))))
  }

  /** The header goes in front only when something is missing. */
  function WithHeader(header: string, missing: seq<string>): (r: seq<string>)
    ensures r == [] <==> missing == []
    ensures r != [] ==> r[0] == header && r[1..] == missing
  {
    if missing == [] then [] else [header] + missing
  }

  /** ACL output with every ", wildcard bits" removed. */
  function AclHaystack(raw: string): string {
    RemoveAll(raw, WildcardPhrase)
  }

  function StigMissing(golden: seq<Entry>, runningConfig: string): seq<string> {
    WithHeader(StigHeader, Check(golden, StigAliases, runningConfig).missing)
  }

  function AclMissing(golden: seq<Entry>, n: string, raw: string): seq<string> {
    WithHeader(AclHeader(n), Check(golden, AclAliases(n), AclHaystack(raw)).missing)
  }

  /** The report text: the fixed sentence when nothing is missing, otherwise
      the fixed prefix and the missing lines joined by newlines. */
  function Verdict(combined: seq<string>): (r: string)
    ensures r == CompliantText <==> combined == []
    ensures combined != [] ==> StartsWith(r, NotCompliantPrefix)
  {
    if combined == [] then CompliantText
    else
      var r := NotCompliantPrefix + Join("\n", combined);
      assert r[..|NotCompliantPrefix|] == NotCompliantPrefix;
      r
  }

  /** Every missing entry, and every header, can be read in the report. */
  lemma VerdictListsEverything(combined: seq<string>, k: nat)
    requires k < |combined|
    ensures Contains(Verdict(combined), combined[k])
  {
    JoinContains("\n", combined, k);
    ContainsInExtension(Join("\n", combined), combined[k], NotCompliantPrefix, "");
    assert NotCompliantPrefix + Join("\n", combined) + "" == Verdict(combined);
  }

  /** A single missing line follows the prefix directly. */
  lemma VerdictOne(x: string)
    ensures Verdict([x]) == NotCompliantPrefix + x
  {
  }

  /** Each further missing line comes after the earlier ones, behind a
      newline: the report lists the entries in order, one per line. */
  lemma VerdictAppend(combined: seq<string>, x: string)
    requires combined != []
    ensures Verdict(combined + [x]) == Verdict(combined) + "\n" + x
  {
    JoinAppend("\n", combined, x);
  }

  /** STIG list, then ACL 1, 2, 5 and 55, in that order. */
  function Combined(golden: Golden, out: DeviceOutput): seq<string> {
    StigMissing(golden.stig, out.runningConfig)
    + AclMissing(golden.acl1, "1", out.acl1)
    + AclMissing(golden.acl2, "2", out.acl2)
    + AclMissing(golden.acl5, "5", out.acl5)
    + AclMissing(golden.acl55, "55", out.acl55)
  }

  /** The page shows the fixed compliant sentence exactly when no list
      reports anything; otherwise it opens with the non-compliant prefix. */
  function Report(golden: Golden, out: DeviceOutput): (r: string)
    ensures r == CompliantText <==> Combined(golden, out) == []
    ensures Combined(golden, out) != [] ==> StartsWith(r, NotCompliantPrefix)
  {
    Verdict(Combined(golden, out))
  }

  /** The output of the first device that answered, if any. */
  function FirstReached(attempts: seq<Attempt>): Option<DeviceOutput> {
    if attempts == [] then None
    else match attempts[0]
      case Unreachable(_) => FirstReached(attempts[1..])
      case Reached(out) => Some(out)
  }

  /** The handler skips devices whose session raised and returns the report
      of the first device that answered; with none it falls off its loop. */
  function Submit(golden: Golden, attempts: seq<Attempt>): (r: Option<string>)
    ensures r.Some? <==> exists k :: 0 <= k < |attempts| && attempts[k].Reached?
  {
    FirstReachedSpec(attempts);
    match FirstReached(attempts)
    case None => None
    case Some(out) => Some(Report(golden, out))
  }

  /** Every entry of the list is met. */
  ghost predicate AllMet(golden: seq<Entry>, aliases: Aliases, haystack: string) {
    forall i :: 0 <= i < |golden| ==> Satisfied(golden[i].text, aliases, haystack)
  }

  // ---------------------------------------------------------------------
  // Properties of one pass

  /** An entry spelled like an alias is never reported missing, whatever the
      device returned. */
  lemma AliasNeverMissing(golden: seq<Entry>, aliases: Aliases, haystack: string, t: string)
    requires t == aliases.first || t == aliases.second
    ensures t !in Check(golden, aliases, haystack).missing
  {
    FilterMapMember(golden, Missed(aliases, haystack), TextOf, t);
  }

  /** A golden text that is not an alias is reported missing exactly when it
      does not occur in the device text. */
  lemma MissingIffAbsent(golden: seq<Entry>, aliases: Aliases, haystack: string, t: string)
    requires exists i :: 0 <= i < |golden| && golden[i].text == t
    requires t != aliases.first && t != aliases.second
    ensures t in Check(golden, aliases, haystack).missing <==> !Contains(haystack, t)
  {
    FilterMapMember(golden, Missed(aliases, haystack), TextOf, t);
  }

  /** A blank golden line occurs in every text, so it is never missing. */
  lemma BlankNeverMissing(golden: seq<Entry>, aliases: Aliases, haystack: string)
    ensures "" !in Check(golden, aliases, haystack).missing
  {
    ContainsEmpty(haystack);
    FilterMapMember(golden, Missed(aliases, haystack), TextOf, "");
  }

  /** More device output before or after never turns a met entry into a
      missing one. */
  lemma ExtendingOutputKeepsMet(golden: seq<Entry>, aliases: Aliases, haystack: string, before: string, after: string)
    ensures forall t :: t in Check(golden, aliases, before + haystack + after).missing
                        ==> t in Check(golden, aliases, haystack).missing
  {
    var big := before + haystack + after;
    forall t | t in Check(golden, aliases, big).missing
      ensures t in Check(golden, aliases, haystack).missing
    {
      FilterMapMember(golden, Missed(aliases, big), TextOf, t);
      FilterMapMember(golden, Missed(aliases, haystack), TextOf, t);
      var i :| 0 <= i < |golden| && Missed(aliases, big)(golden[i]) && golden[i].text == t;
      if Contains(haystack, t) {
        ContainsInExtension(haystack, t, before, after);
      }
      assert Missed(aliases, haystack)(golden[i]);
    }
  }

  /** Starting from all flags 'false', a flag is 'true' after the pass
      exactly when its text is not in the missing list. */
  lemma FlagsAgreeWithMissing(golden: seq<Entry>, aliases: Aliases, haystack: string)
    requires forall i :: 0 <= i < |golden| ==> !golden[i].satisfied
    ensures var p := Check(golden, aliases, haystack);
            forall i :: 0 <= i < |golden| ==> (p.entries[i].satisfied <==> p.entries[i].text !in p.missing)
  {
    var p := Check(golden, aliases, haystack);
    forall i | 0 <= i < |golden|
      ensures p.entries[i].satisfied <==> p.entries[i].text !in p.missing
    {
      FilterMapMember(golden, Missed(aliases, haystack), TextOf, golden[i].text);
    }
  }

  /** Running the pass again on its own output reports the same missing list
      and leaves the flags where they are. */
  lemma CheckIdempotent(golden: seq<Entry>, aliases: Aliases, haystack: string)
    ensures var p := Check(golden, aliases, haystack);
            Check(p.entries, aliases, haystack) == p
  {
    var p := Check(golden, aliases, haystack);
    FilterMapCongruent(golden, p.entries, Missed(aliases, haystack), TextOf);
  }

  /** The missing list is empty exactly when every entry is met. */
  lemma {:induction false} NothingMissingIffAllMet(golden: seq<Entry>, aliases: Aliases, haystack: string)
    ensures Check(golden, aliases, haystack).missing == [] <==> AllMet(golden, aliases, haystack)
  {
    FilterMapEmpty(golden, Missed(aliases, haystack), TextOf);
  }

  // ---------------------------------------------------------------------
  // ACL cleanup by substitution

  /** The ACL phrase is cut out of IOS output, so a golden rule written
      without it is found: "10 permit 10.0.0.0, wildcard bits 0.0.0.255"
      satisfies "10 permit 10.0.0.0" (and "10 permit 10.0.0.0 0.0.0.255"). */
  lemma WildcardPhraseIgnored(address: string, mask: string)
    requires forall k :: 0 <= k < |address| ==> address[k] != ','
    requires forall k :: 0 <= k < |mask| ==> mask[k] != ','
    ensures AclHaystack(address + WildcardPhrase + mask) == address + mask
    ensures Satisfied(address, AclAliases("1"), AclHaystack(address + WildcardPhrase + mask))
  {
    assert WildcardPhrase[0] == ',';
    assert address + WildcardPhrase + mask == address + (WildcardPhrase + mask);
    RemoveAllKeepsPlain(address, WildcardPhrase + mask, WildcardPhrase);
    RemoveAllAtFront(mask, WildcardPhrase);
    RemoveAllKeepsPlain(mask, "", WildcardPhrase);
    assert mask + "" == mask;
    assert RemoveAll("", WildcardPhrase) == "";
    assert OccursAt(address + mask, address, 0);
  }

  /** The concrete line "10 permit 10.0.0.0, wildcard bits 0.0.0.255" from an
      IOS `show access-list` listing. */
  lemma WildcardExample()
    ensures AclHaystack("10 permit 10.0.0.0" + WildcardPhrase + " 0.0.0.255") == "10 permit 10.0.0.0" + " 0.0.0.255"
    ensures Satisfied("10 permit 10.0.0.0", AclAliases("1"), AclHaystack("10 permit 10.0.0.0" + WildcardPhrase + " 0.0.0.255"))
  {
    WildcardPhraseIgnored("10 permit 10.0.0.0", " 0.0.0.255");
  }

  // ---------------------------------------------------------------------
  // The verdict

  /** The device is reported compliant exactly when every STIG entry and
      every entry of the four ACLs is met. */
  lemma ReportCompliantIff(golden: Golden, out: DeviceOutput)
    ensures Report(golden, out) == CompliantText <==>
              && AllMet(golden.stig, StigAliases, out.runningConfig)
              && AllMet(golden.acl1, AclAliases("1"), AclHaystack(out.acl1))
              && AllMet(golden.acl2, AclAliases("2"), AclHaystack(out.acl2))
              && AllMet(golden.acl5, AclAliases("5"), AclHaystack(out.acl5))
              && AllMet(golden.acl55, AclAliases("55"), AclHaystack(out.acl55))
  {
    NothingMissingIffAllMet(golden.stig, StigAliases, out.runningConfig);
    NothingMissingIffAllMet(golden.acl1, AclAliases("1"), AclHaystack(out.acl1));
    NothingMissingIffAllMet(golden.acl2, AclAliases("2"), AclHaystack(out.acl2));
    NothingMissingIffAllMet(golden.acl5, AclAliases("5"), AclHaystack(out.acl5));
    NothingMissingIffAllMet(golden.acl55, AclAliases("55"), AclHaystack(out.acl55));
  }

  /** Some device answered exactly when there is a first one, and the first
      one is the answered device that only failed sessions precede. */
  lemma {:induction false} FirstReachedSpec(attempts: seq<Attempt>)
    ensures FirstReached(attempts).Some? <==> exists k :: 0 <= k < |attempts| && attempts[k].Reached?
    ensures forall k :: 0 <= k < |attempts| && attempts[k].Reached?
                        && (forall m :: 0 <= m < k ==> attempts[m].Unreachable?)
                        ==> FirstReached(attempts) == Some(attempts[k].output)
  {
    if attempts != [] {
      FirstReachedSpec(attempts[1..]);
      if attempts[0].Unreachable? {
        if exists k :: 0 <= k < |attempts| && attempts[k].Reached? {
          var k :| 0 <= k < |attempts| && attempts[k].Reached?;
          assert attempts[1..][k - 1] == attempts[k];
        }
        forall k | 0 <= k < |attempts| && attempts[k].Reached?
                   && (forall m :: 0 <= m < k ==> attempts[m].Unreachable?)
          ensures FirstReached(attempts) == Some(attempts[k].output)
        {
          assert attempts[1..][k - 1] == attempts[k];
          forall m | 0 <= m < k - 1 ensures attempts[1..][m].Unreachable? {
            assert attempts[1..][m] == attempts[m + 1];
          }
        }
      }
    }
  }

  /** The handler answers exactly when some device answered, and then with
      the report of the first one that did. */
  lemma SubmitFirstReached(golden: Golden, attempts: seq<Attempt>)
    ensures Submit(golden, attempts).Some? <==> exists k :: 0 <= k < |attempts| && attempts[k].Reached?
    ensures forall k :: 0 <= k < |attempts| && attempts[k].Reached?
                        && (forall m :: 0 <= m < k ==> attempts[m].Unreachable?)
                        ==> Submit(golden, attempts) == Some(Report(golden, attempts[k].output))
  {
    FirstReachedSpec(attempts);
  }
}

=== FILE: differ.dfy ===
/** The line-ordered differ of the command-line STIG check: the hostname is
    read from the captured session, then every golden line is either found
    anywhere in the device's lines (each device line at most once) or
    compared against the device's lines from a cursor that only moves
    forward, skipping session noise. */
module Differ {
  import opened Wrappers
  import opened Text

  // ---------------------------------------------------------------------
  // The hostname

  const HostnamePrefix := "hostname\nhostname"

  /** `hostname\nhostname\s+(\S+)` tried at the start of `s` only: the
      whitespace run is greedy and the name is the non-whitespace run after
      it, which must not be empty. */
  function HostnameHere(s: string): (r: Option<string>)
    ensures r.Some? ==> r.value != "" && forall k :: 0 <= k < |r.value| ==> !IsSpace(r.value[k])
  {
    if !StartsWith(s, HostnamePrefix) then None
    else
      var rest := s[|HostnamePrefix|..];
      var w := LeadingSpaces(rest);
      if w == 0 || w == |rest| then None
      else
        var tail := rest[w..];
        Some(tail[..LeadingNonSpaces(tail)])
  }

  /** `re.search` of the hostname pattern: the leftmost position where it
      matches decides. */
  function ExtractHostname(contents: string): (r: Option<string>)
    ensures r.Some? ==> r.value != "" && forall k :: 0 <= k < |r.value| ==> !IsSpace(r.value[k])
    decreases |contents|
  {
    if contents == [] then None
    else match HostnameHere(contents)
      case Some(h) => Some(h)
      case None => ExtractHostname(contents[1..])
  }

  /** The search finds a name exactly when some position starts a match, and
      then it is the name of the leftmost such position. */
  lemma {:induction false} ExtractHostnameLeftmost(contents: string)
    ensures ExtractHostname(contents).None? <==> forall p :: 0 <= p <= |contents| ==> HostnameHere(contents[p..]).None?
    ensures ExtractHostname(contents).Some? ==>
              exists p :: 0 <= p < |contents| && HostnameHere(contents[p..]) == ExtractHostname(contents)
                          && forall q :: 0 <= q < p ==> HostnameHere(contents[q..]).None?
    decreases |contents|
  {
    if contents == [] {
      assert HostnameHere(contents[0..]).None?;
    } else if HostnameHere(contents).Some? {
      assert contents[0..] == contents;
    } else {
      var tail := contents[1..];
      ExtractHostnameLeftmost(tail);
      assert forall p :: 1 <= p <= |contents| ==> contents[p..] == tail[p - 1..];
      assert contents[0..] == contents;
      if ExtractHostname(tail).Some? {
        var p :| 0 <= p < |tail| && HostnameHere(tail[p..]) == ExtractHostname(tail)
                 && forall q :: 0 <= q < p ==> HostnameHere(tail[q..]).None?;
        assert contents[p + 1..] == tail[p..];
        forall q | 0 <= q < p + 1 ensures HostnameHere(contents[q..]).None? {
          if q > 0 {
            assert contents[q..] == tail[q - 1..];
          }
        }
      }
    }
  }

  /** The session line `hostname <name>` echoed after the `hostname` command
      yields the name, whatever whitespace separates them and whatever
      follows the name. */
  lemma HostnameRoundTrip(space: string, name: string, rest: string)
    requires space != [] && AllSpace(space)
    requires name != [] && forall k :: 0 <= k < |name| ==> !IsSpace(name[k])
    requires rest == [] || IsSpace(rest[0])
    ensures ExtractHostname(HostnamePrefix + space + name + rest) == Some(name)
  {
    var s := HostnamePrefix + space + name + rest;
    assert s[..|HostnamePrefix|] == HostnamePrefix;
    var after := s[|HostnamePrefix|..];
    assert after == space + (name + rest);
    LeadingSpacesOver(space, name + rest);
    assert after[|space|..] == name + rest;
    LeadingNonSpacesOver(name, rest);
    assert (name + rest)[..|name|] == name;
  }

  /** A session without a `hostname` line pair yields no name. */
  lemma NoHostnameWithoutPrefix(contents: string)
    requires forall p :: 0 <= p <= |contents| ==> !StartsWith(contents[p..], HostnamePrefix)
    ensures ExtractHostname(contents) == None
  {
    ExtractHostnameLeftmost(contents);
  }

  // ---------------------------------------------------------------------
  // The ordered differ

  /** What the differ reports for golden line `line` (counted from 1):
      found anywhere in the device's lines, or compared with device line
      `at` (counted from 0) and identical or not. */
  datatype Verdict =
    | Found(line: nat)
    | Identical(line: nat, at: nat)
    | Mismatch(line: nat, at: nat)

  /** Device lines echoing the prompt, the `configure terminal` command or
      the "Enter configuration commands" banner are never compared. */
  predicate Skipped(line: string, hostname: string) {
    StartsWith(line, hostname) || StartsWith(line, "configure terminal") || StartsWith(line, "Enter")
  }

  /** Golden line `i` (from 0) is found: it is among the device's lines and
      no earlier golden line equal to it already took it. */
  predicate FoundAt(golden: seq<string>, device: seq<string>, i: nat)
    requires i < |golden|
  {
    golden[i] in device && golden[i] !in golden[..i]
  }

  /** Device line `d` was compared by some verdict. */
  ghost predicate Read(vs: seq<Verdict>, d: nat) {
    exists n :: 0 <= n < |vs| && !vs[n].Found? && vs[n].at == d
  }

  /** Golden line `line` got a verdict that ends its turn: found, or a
      mismatch, after which the next golden line is taken. */
  ghost predicate Closed(vs: seq<Verdict>, line: nat) {
    exists n :: 0 <= n < |vs| && vs[n].line == line && !vs[n].Identical?
  }

  ghost predicate LinesUpTo(vs: seq<Verdict>, k: nat) {
    forall n :: 0 <= n < |vs| ==> 1 <= vs[n].line <= k
  }

  ghost predicate LinesSorted(vs: seq<Verdict>) {
    forall n, m :: 0 <= n < m < |vs| ==> vs[n].line <= vs[m].line
  }

  /** Exactly the found golden lines among the first `k` get `Found`. */
  ghost predicate FoundExactly(vs: seq<Verdict>, golden: seq<string>, device: seq<string>, k: nat)
    requires k <= |golden|
  {
    forall i :: 0 <= i < k ==> (Found(i + 1) in vs <==> FoundAt(golden, device, i))
  }

  /** Every comparison reads a device line that is not skipped, only for a
      golden line that was not found, and its outcome is the comparison. */
  ghost predicate ComparisonsAgree(vs: seq<Verdict>, golden: seq<string>, device: seq<string>, hostname: string)
  {
    forall n :: 0 <= n < |vs| && !vs[n].Found? && 1 <= vs[n].line <= |golden| ==>
      && vs[n].at < |device|
      && !Skipped(device[vs[n].at], hostname)
      && !FoundAt(golden, device, vs[n].line - 1)
      && (vs[n].Identical? <==> device[vs[n].at] == golden[vs[n].line - 1])
  }

  /** The cursor only moves forward: comparisons read increasing positions. */
  ghost predicate ReadsIncrease(vs: seq<Verdict>) {
    forall n, m :: 0 <= n < m < |vs| && !vs[n].Found? && !vs[m].Found? ==> vs[n].at < vs[m].at
  }

  ghost predicate ReadsBelow(vs: seq<Verdict>, j: nat) {
    forall n :: 0 <= n < |vs| && !vs[n].Found? ==> vs[n].at < j
  }

  /** Every device line the cursor passed was compared or skipped. */
  ghost predicate PassedLines(vs: seq<Verdict>, device: seq<string>, hostname: string, j: nat)
    requires j <= |device|
  {
    forall d :: 0 <= d < j ==> Read(vs, d) || Skipped(device[d], hostname)
  }

  /** A mismatch ends its golden line's turn. */
  ghost predicate MismatchCloses(vs: seq<Verdict>) {
    forall n :: 0 <= n < |vs| - 1 && vs[n].Mismatch? ==> vs[n].line < vs[n + 1].line
  }

  /** A found golden line gets no other verdict. */
  ghost predicate FoundAlone(vs: seq<Verdict>) {
    forall n, m :: 0 <= n < |vs| && 0 <= m < |vs| && vs[n].Found? && vs[m].line == vs[n].line ==> n == m
  }

  /** A golden line whose turn did not end used up the device's lines. */
  ghost predicate OpenMeansExhausted(vs: seq<Verdict>, k: nat, device: seq<string>, j: nat) {
    (exists line :: 1 <= line <= k && !Closed(vs, line)) ==> j == |device|
  }

  /** A golden line is compared only once every earlier golden line's turn
      has ended: the cursor is never handed on while a line is still open. */
  ghost predicate EarlierClosed(vs: seq<Verdict>) {
    forall n, line :: 0 <= n < |vs| && !vs[n].Found? && 1 <= line < vs[n].line ==> Closed(vs, line)
  }

  /** Once the turns of the first `k` golden lines have all ended, the
      cursor rests just after the last mismatch, or at the start when every
      one of them was found. */
  ghost predicate CursorRests(vs: seq<Verdict>, k: nat, j: nat) {
    (forall line :: 1 <= line <= k ==> Closed(vs, line)) ==>
      || (j == 0 && forall n :: 0 <= n < |vs| ==> vs[n].Found?)
      || (exists n :: 0 <= n < |vs| && vs[n].Mismatch? && vs[n].at + 1 == j)
  }

  /** Appending a verdict keeps earlier reads and closed lines. */
  lemma AppendKeeps(vs: seq<Verdict>, v: Verdict)
    ensures forall d :: Read(vs, d) ==> Read(vs + [v], d)
    ensures forall line :: Closed(vs, line) ==> Closed(vs + [v], line)
    ensures forall x :: x in vs + [v] <==> x in vs || x == v
  {
    forall d | Read(vs, d) ensures Read(vs + [v], d) {
      var n :| 0 <= n < |vs| && !vs[n].Found? && vs[n].at == d;
      assert (vs + [v])[n] == vs[n];
    }
    forall line | Closed(vs, line) ensures Closed(vs + [v], line) {
      var n :| 0 <= n < |vs| && vs[n].line == line && !vs[n].Identical?;
      assert (vs + [v])[n] == vs[n];
    }
  }

  /** What holds at every point of the scan, with the cursor at `j`. */
  ghost predicate Common(vs: seq<Verdict>, golden: seq<string>, device: seq<string>, hostname: string, j: nat) {
    && j <= |device|
    && LinesSorted(vs)
    && FoundAlone(vs)
    && ComparisonsAgree(vs, golden, device, hostname)
    && ReadsIncrease(vs) && ReadsBelow(vs, j)
    && PassedLines(vs, device, hostname, j)
    && MismatchCloses(vs)
    && EarlierClosed(vs)
  }

  /** Between golden lines: the first `k` have been handled. */
  ghost predicate Between(vs: seq<Verdict>, golden: seq<string>, device: seq<string>, hostname: string, k: nat, j: nat) {
    && k <= |golden|
    && Common(vs, golden, device, hostname, j)
    && LinesUpTo(vs, k)
    && FoundExactly(vs, golden, device, k)
    && OpenMeansExhausted(vs, k, device, j)
    && CursorRests(vs, k, j)
  }

  /** While golden line `k` (from 0), which was not found, is compared. */
  ghost predicate Comparing(vs: seq<Verdict>, golden: seq<string>, device: seq<string>, hostname: string, k: nat, j: nat) {
    && k < |golden|
    && !FoundAt(golden, device, k)
    && Common(vs, golden, device, hostname, j)
    && LinesUpTo(vs, k + 1)
    && (forall n :: 0 <= n < |vs| && vs[n].line == k + 1 ==> vs[n].Identical?)
    && FoundExactly(vs, golden, device, k)
    && OpenMeansExhausted(vs, k, device, j)
  }

  lemma StartComparing(vs: seq<Verdict>, golden: seq<string>, device: seq<string>, hostname: string, k: nat, j: nat)
    requires Between(vs, golden, device, hostname, k, j)
    requires k < |golden| && !FoundAt(golden, device, k)
    ensures Comparing(vs, golden, device, hostname, k, j)
  {
  }

  lemma AppendSorted(vs: seq<Verdict>, v: Verdict)
    requires LinesSorted(vs)
    requires forall n :: 0 <= n < |vs| ==> vs[n].line <= v.line
    ensures LinesSorted(vs + [v])
  {
    var ws := vs + [v];
    forall n, m | 0 <= n < m < |ws| ensures ws[n].line <= ws[m].line {
      assert ws[n] == vs[n];
      if m < |vs| {
        assert ws[m] == vs[m];
      }
    }
  }

  lemma AppendFoundAlone(vs: seq<Verdict>, v: Verdict)
    requires FoundAlone(vs)
    requires forall n :: 0 <= n < |vs| ==> vs[n].line < v.line || (vs[n].line == v.line && !vs[n].Found? && !v.Found?)
    ensures FoundAlone(vs + [v])
  {
    var ws := vs + [v];
    forall n, m | 0 <= n < |ws| && 0 <= m < |ws| && ws[n].Found? && ws[m].line == ws[n].line ensures n == m {
      if n < |vs| {
        assert ws[n] == vs[n];
      }
      if m < |vs| {
        assert ws[m] == vs[m];
      }
    }
  }

  lemma AppendAgree(vs: seq<Verdict>, golden: seq<string>, device: seq<string>, hostname: string, v: Verdict)
    requires ComparisonsAgree(vs, golden, device, hostname)
    requires !v.Found? && 1 <= v.line <= |golden| ==>
               && v.at < |device|
               && !Skipped(device[v.at], hostname)
               && !FoundAt(golden, device, v.line - 1)
               && (v.Identical? <==> device[v.at] == golden[v.line - 1])
    ensures ComparisonsAgree(vs + [v], golden, device, hostname)
  {
    var ws := vs + [v];
    forall n | 0 <= n < |ws| ensures ws[n] == if n < |vs| then vs[n] else v {
    }
  }

  lemma AppendReads(vs: seq<Verdict>, v: Verdict, j: nat, j': nat)
    requires ReadsIncrease(vs) && ReadsBelow(vs, j) && j <= j'
    requires !v.Found? ==> j <= v.at < j'
    ensures ReadsIncrease(vs + [v]) && ReadsBelow(vs + [v], j')
  {
    var ws := vs + [v];
    forall n | 0 <= n < |ws| ensures ws[n] == if n < |vs| then vs[n] else v {
    }
  }

  lemma AppendCloses(vs: seq<Verdict>, v: Verdict)
    requires MismatchCloses(vs)
    requires |vs| > 0 && vs[|vs| - 1].Mismatch? ==> vs[|vs| - 1].line < v.line
    ensures MismatchCloses(vs + [v])
  {
    var ws := vs + [v];
    forall n | 0 <= n < |ws| ensures ws[n] == if n < |vs| then vs[n] else v {
    }
  }

  lemma AppendEarlierClosed(vs: seq<Verdict>, v: Verdict)
    requires EarlierClosed(vs)
    requires !v.Found? ==> forall line :: 1 <= line < v.line ==> Closed(vs, line)
    ensures EarlierClosed(vs + [v])
  {
    var ws := vs + [v];
    AppendKeeps(vs, v);
    forall n, line | 0 <= n < |ws| && !ws[n].Found? && 1 <= line < ws[n].line ensures Closed(ws, line) {
      if n < |vs| {
        assert ws[n] == vs[n];
      }
    }
  }

  /** Appending the verdict `Found(k + 1)` closes no earlier line. */
  lemma AppendFoundRests(vs: seq<Verdict>, k: nat, j: nat)
    requires LinesUpTo(vs, k) && CursorRests(vs, k, j)
    ensures CursorRests(vs + [Found(k + 1)], k + 1, j)
  {
    var ws := vs + [Found(k + 1)];
    AppendKeeps(vs, Found(k + 1));
    if forall line :: 1 <= line <= k + 1 ==> Closed(ws, line) {
      forall line | 1 <= line <= k ensures Closed(vs, line) {
        assert Closed(ws, line);
        var n :| 0 <= n < |ws| && ws[n].line == line && !ws[n].Identical?;
        assert n < |vs| && vs[n] == ws[n];
      }
      if exists n :: 0 <= n < |vs| && vs[n].Mismatch? && vs[n].at + 1 == j {
        var n :| 0 <= n < |vs| && vs[n].Mismatch? && vs[n].at + 1 == j;
        assert ws[n] == vs[n];
      }
    }
  }

  lemma FoundStep(vs: seq<Verdict>, golden: seq<string>, device: seq<string>, hostname: string, k: nat, j: nat)
    requires Between(vs, golden, device, hostname, k, j)
    requires k < |golden| && FoundAt(golden, device, k)
    ensures Between(vs + [Found(k + 1)], golden, device, hostname, k + 1, j)
  {
    var v := Found(k + 1);
    var ws := vs + [v];
    AppendKeeps(vs, v);
    AppendSorted(vs, v);
    AppendFoundAlone(vs, v);
    AppendAgree(vs, golden, device, hostname, v);
    AppendReads(vs, v, j, j);
    AppendCloses(vs, v);
    AppendEarlierClosed(vs, v);
    AppendFoundRests(vs, k, j);
    assert ws[|vs|] == v;
    assert Closed(ws, k + 1);
    assert LinesUpTo(ws, k + 1);
    assert FoundExactly(ws, golden, device, k + 1);
  }

  lemma SkipStep(vs: seq<Verdict>, golden: seq<string>, device: seq<string>, hostname: string, k: nat, j: nat)
    requires Comparing(vs, golden, device, hostname, k, j)
    requires j < |device| && Skipped(device[j], hostname)
    ensures Comparing(vs, golden, device, hostname, k, j + 1)
  {
  }

  /** Appending a comparison of golden line `k` with device line `j`. */
  lemma CompareCommon(vs: seq<Verdict>, golden: seq<string>, device: seq<string>, hostname: string, k: nat, j: nat, v: Verdict)
    requires Comparing(vs, golden, device, hostname, k, j)
    requires j < |device| && !Skipped(device[j], hostname)
    requires v == if device[j] == golden[k] then Identical(k + 1, j) else Mismatch(k + 1, j)
    ensures Common(vs + [v], golden, device, hostname, j + 1)
    ensures LinesUpTo(vs + [v], k + 1)
    ensures FoundExactly(vs + [v], golden, device, k)
  {
    var ws := vs + [v];
    AppendKeeps(vs, v);
    AppendSorted(vs, v);
    AppendFoundAlone(vs, v);
    AppendAgree(vs, golden, device, hostname, v);
    AppendReads(vs, v, j, j + 1);
    AppendCloses(vs, v);
    AppendEarlierClosed(vs, v);
    assert ws[|vs|] == v;
    assert Read(ws, j);
    assert LinesUpTo(ws, k + 1);
  }

  lemma IdenticalStep(vs: seq<Verdict>, golden: seq<string>, device: seq<string>, hostname: string, k: nat, j: nat)
    requires Comparing(vs, golden, device, hostname, k, j)
    requires j < |device| && !Skipped(device[j], hostname) && device[j] == golden[k]
    ensures Comparing(vs + [Identical(k + 1, j)], golden, device, hostname, k, j + 1)
  {
    var ws := vs + [Identical(k + 1, j)];
    CompareCommon(vs, golden, device, hostname, k, j, Identical(k + 1, j));
    AppendKeeps(vs, Identical(k + 1, j));
    assert forall n :: 0 <= n < |vs| ==> ws[n] == vs[n];
  }

  lemma MismatchStep(vs: seq<Verdict>, golden: seq<string>, device: seq<string>, hostname: string, k: nat, j: nat)
    requires Comparing(vs, golden, device, hostname, k, j)
    requires j < |device| && !Skipped(device[j], hostname) && device[j] != golden[k]
    ensures Between(vs + [Mismatch(k + 1, j)], golden, device, hostname, k + 1, j + 1)
  {
    var ws := vs + [Mismatch(k + 1, j)];
    CompareCommon(vs, golden, device, hostname, k, j, Mismatch(k + 1, j));
    AppendKeeps(vs, Mismatch(k + 1, j));
    assert forall n :: 0 <= n < |vs| ==> ws[n] == vs[n];
    assert ws[|vs|] == Mismatch(k + 1, j);
    assert CursorRests(ws, k + 1, j + 1);
    assert Closed(ws, k + 1);
    assert FoundExactly(ws, golden, device, k + 1);
  }

  lemma ExhaustedStep(vs: seq<Verdict>, golden: seq<string>, device: seq<string>, hostname: string, k: nat)
    requires Comparing(vs, golden, device, hostname, k, |device|)
    ensures Between(vs, golden, device, hostname, k + 1, |device|)
  {
    assert !Closed(vs, k + 1);
  }

  /** The device lines not yet taken by a found golden line, after the
      first `k` golden lines. */
  ghost function Remaining(golden: seq<string>, device: seq<string>, k: nat): set<string>
    requires k <= |golden|
  {
    (set l | l in device) - (set l | l in golden[..k])
  }

  lemma RemainingStep(golden: seq<string>, device: seq<string>, k: nat)
    requires k < |golden|
    ensures golden[k] in Remaining(golden, device, k) <==> FoundAt(golden, device, k)
    ensures Remaining(golden, device, k + 1) == Remaining(golden, device, k) - {golden[k]}
  {
    assert golden[..k + 1] == golden[..k] + [golden[k]];
  }

  /** What the differ's printed verdicts and final cursor satisfy once every
      golden line has had its turn. */
  ghost predicate Outcome(vs: seq<Verdict>, golden: seq<string>, device: seq<string>, hostname: string, j: nat) {
    && j <= |device|
    && LinesUpTo(vs, |golden|) && LinesSorted(vs)
    && FoundExactly(vs, golden, device, |golden|)
    && FoundAlone(vs)
    && ComparisonsAgree(vs, golden, device, hostname)
    && ReadsIncrease(vs) && ReadsBelow(vs, j)
    && PassedLines(vs, device, hostname, j)
    && MismatchCloses(vs)
    && OpenMeansExhausted(vs, |golden|, device, j)
    && EarlierClosed(vs)
    && CursorRests(vs, |golden|, j)
  }

  /** After the last golden line, the loop's state is the differ's outcome. */
  lemma Finished(vs: seq<Verdict>, golden: seq<string>, device: seq<string>, hostname: string, j: nat)
    requires Between(vs, golden, device, hostname, |golden|, j)
    ensures Outcome(vs, golden, device, hostname, j)
  {
  }

  /** One golden line's turn when it was not found: device lines from the
      cursor on are compared with it, skipping prompt and banner lines,
      until the first mismatch or the end of the device's lines. */
  method CompareLine(vs0: seq<Verdict>, golden: seq<string>, device: seq<string>, hostname: string, k: nat, j0: nat)
    returns (vs: seq<Verdict>, j: nat)
    requires Comparing(vs0, golden, device, hostname, k, j0)
    ensures j0 <= j
    ensures Between(vs, golden, device, hostname, k + 1, j)
  {
    vs, j := vs0, j0;
    var line1 := golden[k];
    while j < |device|
      invariant j0 <= j
      invariant Comparing(vs, golden, device, hostname, k, j)
    {
      var line2 := device[j];
      if Skipped(line2, hostname) {
        SkipStep(vs, golden, device, hostname, k, j);
        j := j + 1;
      } else if line1 == line2 {
        IdenticalStep(vs, golden, device, hostname, k, j);
        vs := vs + [Identical(k + 1, j)];
        j := j + 1;
      } else {
        MismatchStep(vs, golden, device, hostname, k, j);
        vs := vs + [Mismatch(k + 1, j)];
        j := j + 1;
        return;
      }
    }
    ExhaustedStep(vs, golden, device, hostname, k);
  }

  /** The differ: golden and device lines as `readlines` returns them (each
      with its line terminator), and the hostname that marks prompt lines.
      Returns the verdicts in the order they are printed and the final
      device cursor. */
  method Diff(golden: seq<string>, device: seq<string>, hostname: string) returns (vs: seq<Verdict>, j: nat)
    ensures Outcome(vs, golden, device, hostname, j)
  {
    var remaining := set l | l in device;
    vs := [];
    j := 0;
    var k := 0;
    while k < |golden|
      invariant Between(vs, golden, device, hostname, k, j)
      invariant remaining == Remaining(golden, device, k)
    {
      var line1 := golden[k];
      RemainingStep(golden, device, k);
      if line1 in remaining {
        FoundStep(vs, golden, device, hostname, k, j);
        vs := vs + [Found(k + 1)];
        remaining := remaining - {line1};
      } else {
        StartComparing(vs, golden, device, hostname, k, j);
        vs, j := CompareLine(vs, golden, device, hostname, k, j);
      }
      k := k + 1;
    }
    Finished(vs, golden, device, hostname, j);
  }

  /** A device that holds every golden line, against a golden file without
      repeated lines, gets "found" for every line and nothing else: no
      comparison is printed. */
  lemma {:induction false} AllFoundWhenPresent(vs: seq<Verdict>, golden: seq<string>, device: seq<string>)
    requires LinesUpTo(vs, |golden|) && FoundExactly(vs, golden, device, |golden|) && FoundAlone(vs)
    requires forall i :: 0 <= i < |golden| ==> golden[i] in device
    requires forall i, i' :: 0 <= i < i' < |golden| ==> golden[i] != golden[i']
    ensures forall line :: 1 <= line <= |golden| ==> Found(line) in vs
    ensures forall n :: 0 <= n < |vs| ==> vs[n].Found?
  {
    forall line | 1 <= line <= |golden| ensures Found(line) in vs {
      var i := line - 1;
      assert golden[i] !in golden[..i] by {
        forall i' | 0 <= i' < i ensures golden[..i][i'] != golden[i] {
        }
      }
      assert FoundAt(golden, device, i);
    }
    forall n | 0 <= n < |vs| ensures vs[n].Found? {
      var i := vs[n].line - 1;
      assert Found(i + 1) in vs;
      var m :| 0 <= m < |vs| && vs[m] == Found(i + 1);
    }
  }

  /** The concrete facts of the repeated-line example. */
  lemma RepeatedLineFacts(golden: seq<string>, device: seq<string>)
    requires golden == ["B\n", "A\n", "B\n"] && device == ["B\n", "B\n"]
    ensures !Skipped(device[0], "zzz") && !Skipped(device[1], "zzz")
    ensures FoundAt(golden, device, 0)
    ensures !FoundAt(golden, device, 1) && !FoundAt(golden, device, 2)
  {
    assert golden[..2][0] == golden[2];
  }

  /** In the repeated-line example only golden line 1 is found, "A" can only
      mismatch, the second "B" can only be identical and so never ends its
      turn, which leaves the cursor at the end with both device lines read. */
  lemma RepeatedLineVerdicts(vs: seq<Verdict>, j: nat)
    requires Outcome(vs, ["B\n", "A\n", "B\n"], ["B\n", "B\n"], "zzz", j)
    ensures j == 2 && Read(vs, 0) && Read(vs, 1) && Found(1) in vs
    ensures forall m :: 0 <= m < |vs| && vs[m].Found? ==> vs[m] == Found(1)
    ensures forall m :: 0 <= m < |vs| && !vs[m].Found? ==>
      vs[m].at < 2 && (vs[m] == Mismatch(2, vs[m].at) || vs[m] == Identical(3, vs[m].at))
  {
    var golden: seq<string>, device: seq<string> := ["B\n", "A\n", "B\n"], ["B\n", "B\n"];
    RepeatedLineFacts(golden, device);
    assert !Closed(vs, 3);
    forall m | 0 <= m < |vs| && vs[m].Found? ensures vs[m] == Found(1) {
      assert Found(vs[m].line) in vs;
    }
  }

  /** With one found line and reads of device lines 0 and 1 only, every
      verdict is one of the three at `f`, `n0` and `n1`. */
  lemma OnlyThree(vs: seq<Verdict>, f: nat, n0: nat, n1: nat, m: nat)
    requires FoundAlone(vs) && ReadsIncrease(vs)
    requires f < |vs| && vs[f].Found?
    requires n0 < |vs| && !vs[n0].Found? && vs[n0].at == 0
    requires n1 < |vs| && !vs[n1].Found? && vs[n1].at == 1
    requires forall m :: 0 <= m < |vs| && vs[m].Found? ==> vs[m] == vs[f]
    requires forall m :: 0 <= m < |vs| && !vs[m].Found? ==> vs[m].at < 2
    requires m < |vs|
    ensures m == f || m == n0 || m == n1
  {
    if !vs[m].Found? && vs[m].at == 0 {
      assert !(m < n0) && !(n0 < m);
    }
  }

  /** Three verdicts for lines 1 to 3, the found line 1 and comparisons
      reading device lines 0 and 1, in the order the invariants force. */
  lemma RepeatedLineOrder(vs: seq<Verdict>, j: nat)
    requires LinesSorted(vs) && FoundAlone(vs) && ReadsIncrease(vs) && MismatchCloses(vs) && EarlierClosed(vs)
    requires j == 2 && Read(vs, 0) && Read(vs, 1) && Found(1) in vs
    requires forall m :: 0 <= m < |vs| && vs[m].Found? ==> vs[m] == Found(1)
    requires forall m :: 0 <= m < |vs| && !vs[m].Found? ==>
      vs[m].at < 2 && (vs[m] == Mismatch(2, vs[m].at) || vs[m] == Identical(3, vs[m].at))
    ensures vs == [Found(1), Mismatch(2, 0), Identical(3, 1)]
  {
    var n0 :| 0 <= n0 < |vs| && !vs[n0].Found? && vs[n0].at == 0;
    var n1 :| 0 <= n1 < |vs| && !vs[n1].Found? && vs[n1].at == 1;
    var f :| 0 <= f < |vs| && vs[f] == Found(1);
    assert |vs| == 3 by {
      if |vs| > 3 {
        var m :=
          if 0 != f && 0 != n0 && 0 != n1 then 0
          else if 1 != f && 1 != n0 && 1 != n1 then 1
          else if 2 != f && 2 != n0 && 2 != n1 then 2
          else 3;
        OnlyThree(vs, f, n0, n1, m);
      }
    }
    assert vs[n1] == Identical(3, 1);
    assert Closed(vs, 2);
    assert vs[n0] == Mismatch(2, 0);
    assert f < n0 < n1;
  }

  /** A golden line repeated after one that is missing: the first "B" takes
      the device's "B", "A" is compared with the first device line and
      mismatches, and the second "B" is compared with the next device line.
      The outcome admits exactly these verdicts. */
  lemma RepeatedLineOutcome(vs: seq<Verdict>, j: nat)
    requires Outcome(vs, ["B\n", "A\n", "B\n"], ["B\n", "B\n"], "zzz", j)
    ensures vs == [Found(1), Mismatch(2, 0), Identical(3, 1)]
    ensures j == 2
  {
    RepeatedLineVerdicts(vs, j);
    RepeatedLineOrder(vs, j);
  }
}

=== FILE: interfaces.dfy ===
/** The interface-block parser: the `show running-config` text is read line
    by line, each `interface <name>` line opens a fresh record, and the
    switchport, description and shutdown lines that follow fill in the
    record of the interface last opened. Access ports with no description
    or shut down are reported. */
module Interfaces {
  import opened Wrappers
  import opened Text
  import opened Select

  // ---------------------------------------------------------------------
  // The four line patterns, applied to a stripped line

  const InterfaceWord := "interface"
  const DescriptionWord := "description"
  const SwitchportPrefix := "switchport access vlan "

  /** `^interface\s+(\S+)`: the keyword, a whitespace run, and the name is
      the non-whitespace run after it. */
  function InterfaceName(line: string): (r: Option<string>)
    ensures r.Some? ==> r.value != "" && forall k :: 0 <= k < |r.value| ==> !IsSpace(r.value[k])
  {
    if !StartsWith(line, InterfaceWord) then None
    else
      var rest := line[|InterfaceWord|..];
      var w := LeadingSpaces(rest);
      if w == 0 || w == |rest| then None
      else
        var tail := rest[w..];
        Some(tail[..LeadingNonSpaces(tail)])
  }

  /** `^switchport access vlan \d+`, whole match: the prefix and the
      longest run of digits after it, which must not be empty. */
  function SwitchportText(line: string): (r: Option<string>)
    ensures r.Some? ==> StartsWith(r.value, SwitchportPrefix) && |r.value| > |SwitchportPrefix|
    ensures r.Some? ==> StartsWith(line, r.value)
  {
    if !StartsWith(line, SwitchportPrefix) then None
    else
      var d := LeadingDigits(line[|SwitchportPrefix|..]);
      if d == 0 then None
      else Some(line[..|SwitchportPrefix| + d])
  }

  /** `^description\s+(.+)` on a stripped line: the keyword, a whitespace
      run, and the text is the rest of the line up to any newline. On a
      stripped line the whitespace run is never the end of the line, so the
      backtracking the regular expression would do there never arises. */
  function DescriptionText(line: string): (r: Option<string>)
    requires IsTrimmed(line)
    ensures r.Some? ==> r.value != "" && !IsSpace(r.value[0])
  {
    if !StartsWith(line, DescriptionWord) then None
    else
      var rest := line[|DescriptionWord|..];
      var w := LeadingSpaces(rest);
      if w == 0 then None
      else
        assert line[|line| - 1] == rest[|rest| - 1];
        assert w < |rest|;
        var tail := rest[w..];
        Some(tail[..IndexOf(tail, '\n')])
  }

  lemma InterfaceNameOf(space: string, name: string)
    requires space != [] && AllSpace(space)
    requires name != [] && forall k :: 0 <= k < |name| ==> !IsSpace(name[k])
    ensures InterfaceName(InterfaceWord + space + name) == Some(name)
  {
    var line := InterfaceWord + space + name;
    assert line[..|InterfaceWord|] == InterfaceWord;
    var rest := line[|InterfaceWord|..];
    assert rest == space + name;
    LeadingSpacesOver(space, name);
    assert rest[|space|..] == name;
    LeadingNonSpacesOver(name, []);
    assert name + [] == name;
  }

  lemma SwitchportTextOf(digits: string, rest: string)
    requires digits != [] && forall k :: 0 <= k < |digits| ==> IsDigit(digits[k])
    requires rest == [] || !IsDigit(rest[0])
    ensures SwitchportText(SwitchportPrefix + digits + rest) == Some(SwitchportPrefix + digits)
  {
    var line := SwitchportPrefix + digits + rest;
    assert line[..|SwitchportPrefix|] == SwitchportPrefix;
    assert line[|SwitchportPrefix|..] == digits + rest;
    LeadingDigitsOver(digits, rest);
    assert line[..|SwitchportPrefix| + |digits|] == SwitchportPrefix + digits;
  }

  lemma DescriptionTextOf(space: string, text: string)
    requires space != [] && AllSpace(space)
    requires text != [] && IsTrimmed(text) && forall k :: 0 <= k < |text| ==> text[k] != '\n'
    ensures IsTrimmed(DescriptionWord + space + text)
    ensures DescriptionText(DescriptionWord + space + text) == Some(text)
  {
    var line := DescriptionWord + space + text;
    assert line[..|DescriptionWord|] == DescriptionWord;
    assert line[0] == 'd' && line[|line| - 1] == text[|text| - 1];
    assert IsTrimmed(line);
    var rest := line[|DescriptionWord|..];
    assert rest == space + text;
    LeadingSpacesOver(space, text);
    assert LeadingSpaces(rest) == |space|;
    assert rest[|space|..] == text;
    assert IndexOf(text, '\n') == |text|;
    assert text[..|text|] == text;
  }

  // ---------------------------------------------------------------------
  // The records

  /** One interface's settings; `None` stands for the initial `False`. The
      stored texts are never empty, so their truth is their presence. */
  datatype Port = Port(switchport: Option<string>, description: Option<string>, shutdown: bool)

  const FreshPort := Port(None, None, false)

  datatype Interface = Interface(name: string, port: Port)

  /** The interface dictionary, in insertion order. */
  type Table = seq<Interface>

  function Names(t: Table): set<string> {
    set e | e in t :: e.name
  }

  ghost predicate DistinctNames(t: Table) {
    forall i, j :: 0 <= i < j < |t| ==> t[i].name != t[j].name
  }

  function Lookup(t: Table, name: string): (r: Option<Port>)
    ensures r.Some? <==> name in Names(t)
    ensures r.Some? ==> Interface(name, r.value) in t
  {
    if t == [] then None
    else if t[0].name == name then Some(t[0].port)
    else
      assert forall e :: e in t[1..] ==> e in t;
      assert Names(t) == {t[0].name} + Names(t[1..]);
      Lookup(t[1..], name)
  }

  /** `table[name] = port`: an existing key keeps its place and takes the
      new value, a new key goes at the end. */
  function Put(t: Table, name: string, port: Port): (r: Table)
    ensures Names(r) == Names(t) + {name}
  {
    if t == [] then [Interface(name, port)]
    else if t[0].name == name then
      var r := [Interface(name, port)] + t[1..];
      assert forall e :: e in t[1..] ==> e in t && e in r;
      assert Names(r) == {name} + Names(t[1..]);
      assert Names(t) == {name} + Names(t[1..]);
      r
    else
      var r' := Put(t[1..], name, port);
      var r := [t[0]] + r';
      assert forall e :: e in t[1..] ==> e in t;
      assert Names(t) == {t[0].name} + Names(t[1..]);
      assert Names(r) == {t[0].name} + Names(r');
      r
  }

  /** After the assignment the key reads the new value and every other key
      reads what it read before. */
  lemma {:induction false} PutLookup(t: Table, name: string, port: Port, m: string)
    ensures Lookup(Put(t, name, port), m) == if m == name then Some(port) else Lookup(t, m)
    decreases |t|
  {
    if t != [] && t[0].name != name {
      PutLookup(t[1..], name, port, m);
      var r := Put(t, name, port);
      assert r[0] == t[0] && r[1..] == Put(t[1..], name, port);
    } else if t != [] {
      var r := Put(t, name, port);
      assert r[1..] == t[1..];
    }
  }

  /** Keys stay distinct. */
  lemma {:induction false} PutDistinct(t: Table, name: string, port: Port)
    requires DistinctNames(t)
    ensures DistinctNames(Put(t, name, port))
    decreases |t|
  {
    if t != [] && t[0].name != name {
      var r' := Put(t[1..], name, port);
      var r := [t[0]] + r';
      assert Put(t, name, port) == r;
      PutDistinct(t[1..], name, port);
      forall j | 0 < j < |r| ensures r[0].name != r[j].name {
        assert r[j] in r';
        assert r[j].name in Names(r');
        assert forall e :: e in t[1..] ==> e in t;
        assert t[0].name !in Names(t[1..]);
      }
    } else if t != [] {
      var r := Put(t, name, port);
      forall i, j | 0 <= i < j < |r| ensures r[i].name != r[j].name {
        assert r[j] == t[j];
        if i > 0 {
          assert r[i] == t[i];
        }
      }
    }
  }

  /** An existing key keeps its place. */
  lemma {:induction false} PutKeepsPlace(t: Table, name: string, port: Port)
    requires name in Names(t)
    ensures |Put(t, name, port)| == |t|
    ensures forall i :: 0 <= i < |t| ==> Put(t, name, port)[i].name == t[i].name
    decreases |t|
  {
    assert t != [];
    if t[0].name != name {
      assert forall e :: e in t[1..] ==> e in t;
      assert Names(t) == {t[0].name} + Names(t[1..]);
      PutKeepsPlace(t[1..], name, port);
      var r := Put(t, name, port);
      assert r == [t[0]] + Put(t[1..], name, port);
      forall i | 0 <= i < |t| ensures r[i].name == t[i].name {
        if i > 0 {
          assert r[i] == Put(t[1..], name, port)[i - 1];
        }
      }
    }
  }

  /** A new key goes at the end. */
  lemma PutAppendsNew(t: Table, name: string, port: Port)
    requires name !in Names(t)
    ensures Put(t, name, port) == t + [Interface(name, port)]
  {
    forall i | 0 <= i < |t| ensures t[i].name != name {
      assert t[i] in t;
    }
    PutAppendsAbsent(t, name, port);
  }

  lemma {:induction false} PutAppendsAbsent(t: Table, name: string, port: Port)
    requires forall i :: 0 <= i < |t| ==> t[i].name != name
    ensures Put(t, name, port) == t + [Interface(name, port)]
    decreases |t|
  {
    if t != [] {
      PutAppendsAbsent(t[1..], name, port);
      assert [t[0]] + (t[1..] + [Interface(name, port)]) == t + [Interface(name, port)];
    }
  }

  // ---------------------------------------------------------------------
  // The parser

  /** The dictionary and the interface last opened. */
  datatype Parser = Parser(table: Table, current: Option<string>)

  const Initial := Parser([], None)

  /** Names are distinct and the current interface has a record. */
  ghost predicate Valid(st: Parser) {
    && DistinctNames(st.table)
    && (st.current.Some? ==> st.current.value in Names(st.table))
  }

  /** What a line is, after stripping, by the first pattern that matches:
      an interface line first, then switchport, description and shutdown. */
  datatype LineKind =
    | InterfaceLine(name: string)
    | SwitchportLine(text: string)
    | DescriptionLine(text: string)
    | ShutdownLine
    | OtherLine

  function Kind(raw: string): LineKind {
    var line := Strip(raw);
    if InterfaceName(line).Some? then InterfaceLine(InterfaceName(line).value)
    else if SwitchportText(line).Some? then SwitchportLine(SwitchportText(line).value)
    else if DescriptionText(line).Some? then DescriptionLine(DescriptionText(line).value)
    else if line == "shutdown" then ShutdownLine
    else OtherLine
  }

  /** The record after one setting line of its block. */
  function Apply(p: Port, k: LineKind): Port {
    match k
    case SwitchportLine(text) => p.(switchport := Some(text))
    case DescriptionLine(text) => p.(description := Some(text))
    case ShutdownLine => p.(shutdown := true)
    case _ => p
  }

  /** One line of the configuration: an interface line opens a fresh record;
      a setting line changes the record of the interface last opened, if
      there is one. */
  function Step(st: Parser, raw: string): (r: Parser)
    requires Valid(st)
    ensures Valid(r)
  {
    match Kind(raw)
    case InterfaceLine(name) =>
      PutDistinct(st.table, name, FreshPort);
      Parser(Put(st.table, name, FreshPort), Some(name))
    case OtherLine => st
    case k =>
      if st.current.None? then st
      else
        var c := st.current.value;
        PutDistinct(st.table, c, Apply(Lookup(st.table, c).value, k));
        Parser(Put(st.table, c, Apply(Lookup(st.table, c).value, k)), st.current)
  }

  function Run(st: Parser, lines: seq<string>): (r: Parser)
    requires Valid(st)
    ensures Valid(r)
    decreases |lines|
  {
    if lines == [] then st else Run(Step(st, lines[0]), lines[1..])
  }

  /** The whole configuration text. */
  function Parse(config: string): (r: Parser)
    ensures Valid(r)
  {
    Run(Initial, SplitLines(config))
  }

  /** The interface names the lines open. */
  function Opened(lines: seq<string>): set<string> {
    set l | l in lines && InterfaceName(Strip(l)).Some? :: InterfaceName(Strip(l)).value
  }

  // ---------------------------------------------------------------------
  // What a line does

  /** An interface line opens that interface with every setting reset,
      whatever it held before, and touches no other record. */
  lemma InterfaceLineResets(st: Parser, raw: string, name: string)
    requires Valid(st)
    requires InterfaceName(Strip(raw)) == Some(name)
    ensures Step(st, raw).current == Some(name)
    ensures Lookup(Step(st, raw).table, name) == Some(FreshPort)
    ensures forall m :: m != name ==> Lookup(Step(st, raw).table, m) == Lookup(st.table, m)
  {
    assert Kind(raw) == InterfaceLine(name);
    assert Step(st, raw) == Parser(Put(st.table, name, FreshPort), Some(name));
    forall m ensures Lookup(Step(st, raw).table, m) == if m == name then Some(FreshPort) else Lookup(st.table, m) {
      PutLookup(st.table, name, FreshPort, m);
    }
  }

  /** Any other line changes at most the current interface's record, and
      nothing before the first interface line changes anything. */
  lemma OtherLineStaysInBlock(st: Parser, raw: string)
    requires Valid(st)
    requires InterfaceName(Strip(raw)).None?
    ensures Step(st, raw).current == st.current
    ensures Names(Step(st, raw).table) == Names(st.table)
    ensures forall m :: st.current != Some(m) ==> Lookup(Step(st, raw).table, m) == Lookup(st.table, m)
  {
    var k := Kind(raw);
    assert !k.InterfaceLine?;
    if k != OtherLine && st.current.Some? {
      var c := st.current.value;
      var p := Apply(Lookup(st.table, c).value, k);
      assert Step(st, raw) == Parser(Put(st.table, c, p), st.current);
      forall m | m != c ensures Lookup(Step(st, raw).table, m) == Lookup(st.table, m) {
        PutLookup(st.table, c, p, m);
      }
    } else {
      assert Step(st, raw) == st;
    }
  }

  /** "shutdown", with any whitespace around it, marks the current
      interface shut down. */
  lemma ShutdownMarks(st: Parser, a: string, b: string)
    requires Valid(st) && st.current.Some?
    requires AllSpace(a) && AllSpace(b)
    ensures Lookup(Step(st, a + "shutdown" + b).table, st.current.value).value
            == Lookup(st.table, st.current.value).value.(shutdown := true)
  {
    StripAround(a, "shutdown", b);
    assert InterfaceName("shutdown").None? by {
      assert "shutdown"[0] != InterfaceWord[0];
    }
    assert SwitchportText("shutdown").None? by {
      assert "shutdown"[1] != SwitchportPrefix[1];
    }
    StripTrimmed("shutdown");
    assert DescriptionText("shutdown").None? by {
      assert "shutdown"[0] != DescriptionWord[0];
    }
    var raw := a + "shutdown" + b;
    assert Kind(raw) == ShutdownLine;
    var c := st.current.value;
    var p := Apply(Lookup(st.table, c).value, ShutdownLine);
    assert Step(st, raw) == Parser(Put(st.table, c, p), st.current);
    PutLookup(st.table, c, p, c);
  }

  /** "no shutdown" changes nothing: only the bare word counts. */
  lemma NoShutdownIgnored(st: Parser, a: string, b: string)
    requires Valid(st)
    requires AllSpace(a) && AllSpace(b)
    ensures Step(st, a + "no shutdown" + b) == st
  {
    StripAround(a, "no shutdown", b);
    assert InterfaceName("no shutdown").None? by {
      assert "no shutdown"[0] != InterfaceWord[0];
    }
    assert SwitchportText("no shutdown").None? by {
      assert "no shutdown"[0] != SwitchportPrefix[0];
    }
    StripTrimmed("no shutdown");
    assert DescriptionText("no shutdown").None? by {
      assert "no shutdown"[0] != DescriptionWord[0];
    }
    assert Kind(a + "no shutdown" + b) == OtherLine;
  }

  /** A switchport line stores its whole matched text in the current
      record, replacing any earlier one, and leaves the other settings. */
  lemma SwitchportLineSets(st: Parser, digits: string)
    requires Valid(st) && st.current.Some?
    requires digits != [] && forall k :: 0 <= k < |digits| ==> IsDigit(digits[k])
    ensures Lookup(Step(st, SwitchportPrefix + digits).table, st.current.value).value
            == Lookup(st.table, st.current.value).value.(switchport := Some(SwitchportPrefix + digits))
  {
    var line := SwitchportPrefix + digits;
    assert line[0] == 's' && IsDigit(line[|line| - 1]);
    StripTrimmed(line);
    SwitchportTextOf(digits, []);
    assert line + [] == line;
    assert InterfaceName(line).None? by {
      assert line[0] != InterfaceWord[0];
    }
    assert Kind(line) == SwitchportLine(line);
    var c := st.current.value;
    var p := Apply(Lookup(st.table, c).value, SwitchportLine(line));
    assert Step(st, line) == Parser(Put(st.table, c, p), st.current);
    PutLookup(st.table, c, p, c);
  }

  /** A description line stores the text after the whitespace in the current
      record, replacing any earlier one, and leaves the other settings. */
  lemma DescriptionLineSets(st: Parser, space: string, text: string)
    requires Valid(st) && st.current.Some?
    requires space != [] && AllSpace(space)
    requires text != [] && IsTrimmed(text) && forall k :: 0 <= k < |text| ==> text[k] != '\n'
    ensures Lookup(Step(st, DescriptionWord + space + text).table, st.current.value).value
            == Lookup(st.table, st.current.value).value.(description := Some(text))
  {
    var line := DescriptionWord + space + text;
    DescriptionTextOf(space, text);
    StripTrimmed(line);
    assert line[..|DescriptionWord|] == DescriptionWord;
    assert InterfaceName(line).None? by {
      assert line[0] == 'd' && line[0] != InterfaceWord[0];
    }
    assert SwitchportText(line).None? by {
      assert line[0] != SwitchportPrefix[0];
    }
    assert Kind(line) == DescriptionLine(text);
    var c := st.current.value;
    var p := Apply(Lookup(st.table, c).value, DescriptionLine(text));
    assert Step(st, line) == Parser(Put(st.table, c, p), st.current);
    PutLookup(st.table, c, p, c);
  }

  /** Nothing but an interface line clears the shutdown mark. */
  lemma ShutdownSticks(st: Parser, raw: string, name: string)
    requires Valid(st)
    requires Lookup(st.table, name).Some? && Lookup(st.table, name).value.shutdown
    requires InterfaceName(Strip(raw)) != Some(name)
    ensures Lookup(Step(st, raw).table, name).Some? && Lookup(Step(st, raw).table, name).value.shutdown
  {
    var k := Kind(raw);
    match k
    case InterfaceLine(n) =>
      assert n != name;
      InterfaceLineResets(st, raw, n);
    case OtherLine =>
      assert Step(st, raw) == st;
    case _ =>
      if st.current.Some? {
        var c := st.current.value;
        var p := Apply(Lookup(st.table, c).value, k);
        assert Step(st, raw) == Parser(Put(st.table, c, p), st.current);
        PutLookup(st.table, c, p, name);
      } else {
        assert Step(st, raw) == st;
      }
  }

  // ---------------------------------------------------------------------
  // What the lines do together

  lemma {:induction false} RunAppend(st: Parser, a: seq<string>, b: seq<string>)
    requires Valid(st)
    ensures Run(st, a + b) == Run(Run(st, a), b)
    decreases |a|
  {
    if a != [] {
      assert (a + b)[0] == a[0] && (a + b)[1..] == a[1..] + b;
      RunAppend(Step(st, a[0]), a[1..], b);
    } else {
      assert a + b == b;
    }
  }

  /** Lines before the first interface line leave the parser as it starts. */
  lemma {:induction false} PreambleIgnored(preamble: seq<string>, rest: seq<string>)
    requires forall k :: 0 <= k < |preamble| ==> InterfaceName(Strip(preamble[k])).None?
    ensures Run(Initial, preamble) == Initial
    ensures Run(Initial, preamble + rest) == Run(Initial, rest)
    decreases |preamble|
  {
    if preamble != [] {
      assert Step(Initial, preamble[0]) == Initial;
      PreambleIgnored(preamble[1..], rest);
    }
    RunAppend(Initial, preamble, rest);
  }

  /** One line adds the name it opens, if any, to the keys. */
  lemma StepNames(st: Parser, raw: string)
    requires Valid(st)
    ensures Names(Step(st, raw).table) == Names(st.table) + Opened([raw])
  {
    match InterfaceName(Strip(raw))
    case Some(n) =>
      assert Kind(raw) == InterfaceLine(n);
      assert Opened([raw]) == {n};
    case None =>
      OtherLineStaysInBlock(st, raw);
      assert Opened([raw]) == {};
  }

  lemma OpenedCons(lines: seq<string>)
    requires lines != []
    ensures Opened(lines) == Opened([lines[0]]) + Opened(lines[1..])
  {
    assert forall x :: x in lines <==> x == lines[0] || x in lines[1..];
  }

  /** The dictionary's keys are exactly the names the interface lines open. */
  lemma {:induction false} RunNames(st: Parser, lines: seq<string>)
    requires Valid(st)
    ensures Names(Run(st, lines).table) == Names(st.table) + Opened(lines)
    decreases |lines|
  {
    if lines == [] {
      assert Opened(lines) == {};
    } else {
      var l := lines[0];
      StepNames(st, l);
      RunNames(Step(st, l), lines[1..]);
      OpenedCons(lines);
      assert Run(st, lines) == Run(Step(st, l), lines[1..]);
    }
  }

  lemma ParseNames(config: string)
    ensures Names(Parse(config).table) == Opened(SplitLines(config))
  {
    RunNames(Initial, SplitLines(config));
  }

  // ---------------------------------------------------------------------
  // The report

  /** An access port that lacks a description or is shut down. */
  predicate NonCompliant(p: Port) {
    p.switchport.Some? && (p.description.None? || p.shutdown)
  }

  /** The names printed under "Non-compliant access ports:", in dictionary
      order. */
  function NonCompliantPorts(t: Table): (r: seq<string>)
    ensures |r| <= |t|
  {
    FilterMap(t, (e: Interface) => NonCompliant(e.port), (e: Interface) => e.name)
  }

  /** A name is reported exactly when its record is a non-compliant access
      port. */
  lemma NonCompliantPortsIff(t: Table, name: string)
    requires DistinctNames(t)
    ensures name in NonCompliantPorts(t) <==> Lookup(t, name).Some? && NonCompliant(Lookup(t, name).value)
  {
    var keep := (e: Interface) => NonCompliant(e.port);
    var f := (e: Interface) => e.name;
    FilterMapMember(t, keep, f, name);
    if Lookup(t, name).Some? {
      var i :| 0 <= i < |t| && t[i] == Interface(name, Lookup(t, name).value);
      forall j | 0 <= j < |t| && t[j].name == name ensures t[j] == t[i] {
      }
    }
  }

  /** The report lists the non-compliant ports in the order their interfaces
      were first opened. */
  lemma NonCompliantPortsOrdered(t: Table)
    ensures IsFilterMap(NonCompliantPorts(t), t, (e: Interface) => NonCompliant(e.port), (e: Interface) => e.name)
  {
    FilterMapSpec(t, (e: Interface) => NonCompliant(e.port), (e: Interface) => e.name);
  }
}

=== FILE: inventory.dfy ===
/** The enterprise-device filter of the inventory handler: of the devices
    the inventory service returns, keep those on the requested network, of
    the selected type, whose name mentions none of the excluded kinds, and
    list their management addresses in the order the service returned them. */
module Inventory {
  import opened Text
  import opened Select

  /** The fields of an inventory record the filter reads. */
  datatype Device = Device(virtualNetworkId: string, name: string, deviceType: string, ipDotted: string)

  /** The alternatives of the exclusion pattern, in lower case. */
  const Excludes: seq<string> := ["sdwan", "vpn", "cube", "voice", "unknown", "dnac"]

  /** The case-insensitive search of the exclusion pattern: some alternative
      occurs somewhere in the name. */
  predicate Excluded(name: string) {
    exists k :: 0 <= k < |Excludes| && Contains(LowerAsciiString(name), Excludes[k])
  }

  /** The three conditions of the loop. */
  predicate Selected(d: Device, selectedType: string, network: string) {
    d.virtualNetworkId == network && !Excluded(d.name) && d.deviceType == selectedType
  }

  function IpOf(d: Device): string {
    d.ipDotted
  }

  /** The loop over the fetched devices. */
  method EnterpriseDevices(devices: seq<Device>, selectedType: string, network: string) returns (ips: seq<string>)
    ensures IsFilterMap(ips, devices, (d: Device) => Selected(d, selectedType, network), IpOf)
    ensures forall ip :: ip in ips <==>
              exists i :: 0 <= i < |devices| && Selected(devices[i], selectedType, network) && devices[i].ipDotted == ip
  {
    var keep := (d: Device) => Selected(d, selectedType, network);
    ips := [];
    var k := 0;
    while k < |devices|
      invariant k <= |devices|
      invariant ips == FilterMap(devices[..k], keep, IpOf)
    {
      var device := devices[k];
      assert devices[..k + 1] == devices[..k] + [device];
      FilterMapSnoc(devices[..k], device, keep, IpOf);
      if device.virtualNetworkId == network {
        if !Excluded(device.name) && device.deviceType == selectedType {
          ips := ips + [device.ipDotted];
        }
      }
      k := k + 1;
    }
    assert devices[..k] == devices;
    FilterMapSpec(devices, keep, IpOf);
    forall ip ensures ip in ips <==>
        exists i :: 0 <= i < |devices| && Selected(devices[i], selectedType, network) && devices[i].ipDotted == ip
    {
      FilterMapMember(devices, keep, IpOf, ip);
    }
  }

  lemma LowerAsciiIdempotent(s: string)
    ensures LowerAsciiString(LowerAsciiString(s)) == LowerAsciiString(s)
  {
  }

  lemma LowerAsciiAppend(a: string, b: string)
    ensures LowerAsciiString(a + b) == LowerAsciiString(a) + LowerAsciiString(b)
  {
  }

  /** Letter case does not matter to the exclusion. */
  lemma ExcludedIgnoresCase(name: string)
    ensures Excluded(name) <==> Excluded(LowerAsciiString(name))
  {
    LowerAsciiIdempotent(name);
  }

  /** A name that holds an excluded word anywhere, in any letter case, is
      excluded. */
  lemma ExcludedAnywhere(before: string, word: string, after: string, k: nat)
    requires k < |Excludes| && LowerAsciiString(word) == Excludes[k]
    ensures Excluded(before + word + after)
  {
    LowerAsciiAppend(before + word, after);
    LowerAsciiAppend(before, word);
    assert Contains(Excludes[k], Excludes[k]) by {
      assert OccursAt(Excludes[k], Excludes[k], 0);
    }
    ContainsInExtension(Excludes[k], Excludes[k], LowerAsciiString(before), LowerAsciiString(after));
  }
}

=== FILE: sectioned.dfy ===
/** The sectioned comparator of the JSON-driven handler: the running
    configuration becomes a set of trimmed lines, each command of each
    section of the golden document is looked up in it (with six command
    categories that accept variants), the missing commands are reported per
    section, and the four ACL lists of the plain matcher follow. */
module Sectioned {
  import opened Wrappers
  import opened Text
  import opened Select
  import Baseline

  /** One section of the golden document: its key and its commands. */
  datatype Section = Section(key: string, commands: seq<string>)

  /** The `sections` object of the golden document, in document order (an
      absent `sections` member reads as the empty object). */
  type Document = seq<Section>

  /** One entry of the missing-commands map. */
  datatype Missing = Missing(key: string, commands: seq<string>)

  /** What the handler needs from a golden set: the document and the four
      golden ACL lists. */
  datatype JsonGolden = JsonGolden(doc: Document, acl1: seq<Baseline.Entry>, acl2: seq<Baseline.Entry>,
                                   acl5: seq<Baseline.Entry>, acl55: seq<Baseline.Entry>)

  // ---------------------------------------------------------------------
  // The running-configuration view

  /** The running configuration as the handler sees it: the set of its
      lines, each stripped of surrounding whitespace, blank lines dropped. */
  function RunningSet(output: string): (lines: set<string>)
    ensures forall x :: x in lines ==> x != "" && IsTrimmed(x)
  {
    set l | l in SplitLines(output) && Strip(l) != "" :: Strip(l)
  }

  /** For output made of break-free lines joined by newlines, the view holds
      exactly the non-empty stripped lines: order and repetition are lost. */
  lemma RunningSetOfLines(lines: seq<string>)
    requires NoBreaks(lines)
    ensures RunningSet(Join("\n", lines)) == set l | l in lines && Strip(l) != "" :: Strip(l)
  {
    SplitLinesOfJoin(lines);
    var split := SplitLines(Join("\n", lines));
    assert forall l :: l in split ==> l in lines;
    forall l | l in lines && Strip(l) != "" ensures l in split {
      var i :| 0 <= i < |lines| && lines[i] == l;
      if lines[|lines| - 1] == "" {
        assert i < |lines| - 1;
        assert split[i] == l;
      }
    }
    var a := RunningSet(Join("\n", lines));
    var b := set l | l in lines && Strip(l) != "" :: Strip(l);
    forall x | x in b ensures x in a {
      var l :| l in lines && Strip(l) != "" && Strip(l) == x;
      assert l in split;
    }
    forall x | x in a ensures x in b {
      var l :| l in split && Strip(l) != "" && Strip(l) == x;
      assert l in lines;
    }
  }

  /** Reordering or repeating the lines of the output does not change the
      view. */
  lemma RunningSetOrderFree(a: seq<string>, b: seq<string>)
    requires NoBreaks(a) && NoBreaks(b)
    requires forall l :: l in a <==> l in b
    ensures RunningSet(Join("\n", a)) == RunningSet(Join("\n", b))
  {
    RunningSetOfLines(a);
    RunningSetOfLines(b);
  }

  // ---------------------------------------------------------------------
  // The six command categories

  /** One position of a fixed-width pattern. */
  datatype CharClass = Exactly(c: char) | AnyButNewline | EitherOf(a: char, b: char)

  predicate Accepts(k: CharClass, c: char) {
    match k
    case Exactly(x) => c == x
    case AnyButNewline => c != '\n'
    case EitherOf(x, y) => c == x || c == y
  }

  /** A regular-expression fragment with no metacharacter but `.`, which
      accepts any character except a newline. */
  function Literal(s: string): (p: seq<CharClass>)
    ensures |p| == |s|
  {
    seq(|s|, i requires 0 <= i < |s| => if s[i] == '.' then AnyButNewline else Exactly(s[i]))
  }

  /** `re.match` of a pattern made of single-character positions: anchored
      at the start, not at the end. */
  predicate MatchesAtStart(p: seq<CharClass>, s: string) {
    |p| <= |s| && forall i :: 0 <= i < |p| ==> Accepts(p[i], s[i])
  }

  datatype Category = DomainName | SshEncryption | AaaPolicy | RestrictedUser | NtpKey | LoggingHost

  /** The six patterns of the handler. A two-way alternation of same-length
      alternatives becomes one `EitherOf` position; a trailing `.*` matches
      the empty string and is left out. */
  function Pattern(c: Category): seq<CharClass> {
    match c
    case DomainName => Literal("ip domain") + [EitherOf('-', ' ')] + Literal("name test.com")
    case SshEncryption => Literal("ip ssh ") + Literal("server algorithm ") + Literal("encryption aes256")
    case AaaPolicy => Literal("aaa ") + Literal("common-criteria ") + Literal("policy PW_POLICY")
    case RestrictedUser => Literal("username ") + Literal("networks privilege 0")
    case NtpKey => Literal("ntp ") + Literal("authentication-key 3") + [EitherOf('1', '2')] + Literal(" sha") + [EitherOf('1', '2')]
    case LoggingHost =>
      Literal("logging host ") + Literal("192.168.1.1") + Literal(" transport udp port 1051") + [EitherOf('4', '6')]
  }

  predicate InCategory(c: Category, s: string) {
    MatchesAtStart(Pattern(c), s)
  }

  /** The category of a command, trying the patterns in the handler's order. */
  function Classify(cmd: string): (r: Option<Category>)
    ensures r.Some? ==> InCategory(r.value, cmd)
    ensures r.None? ==> forall c :: !InCategory(c, cmd)
  {
    if InCategory(DomainName, cmd) then Some(DomainName)
    else if InCategory(SshEncryption, cmd) then Some(SshEncryption)
    else if InCategory(AaaPolicy, cmd) then Some(AaaPolicy)
    else if InCategory(RestrictedUser, cmd) then Some(RestrictedUser)
    else if InCategory(NtpKey, cmd) then Some(NtpKey)
    else if InCategory(LoggingHost, cmd) then Some(LoggingHost)
    else None
  }

  /** The characters that tell the patterns apart: the first one, and for
      the two "ip ..." patterns the fourth. */
  lemma PatternHeads()
    ensures Pattern(DomainName)[0] == Exactly('i') && Pattern(DomainName)[3] == Exactly('d')
    ensures Pattern(SshEncryption)[0] == Exactly('i') && Pattern(SshEncryption)[3] == Exactly('s')
    ensures Pattern(AaaPolicy)[0] == Exactly('a')
    ensures Pattern(RestrictedUser)[0] == Exactly('u')
    ensures Pattern(NtpKey)[0] == Exactly('n')
    ensures Pattern(LoggingHost)[0] == Exactly('l')
  {
    LiteralHead("ip domain", 3);
    LiteralHead("ip ssh ", 3);
    LiteralHead("aaa ", 0);
    LiteralHead("username ", 0);
    LiteralHead("ntp ", 0);
    LiteralHead("logging host ", 0);
  }

  lemma LiteralHead(s: string, i: nat)
    requires i < |s| && s[0] != '.' && s[i] != '.'
    ensures Literal(s)[0] == Exactly(s[0]) && Literal(s)[i] == Exactly(s[i])
  {
  }

  /** A literal fragment matches its own text. */
  lemma LiteralSelf(lit: string)
    ensures MatchesAtStart(Literal(lit), lit)
  {
  }

  lemma EitherSelf(x: char, y: char, c: char)
    requires c == x || c == y
    ensures MatchesAtStart([EitherOf(x, y)], [c])
  {
  }

  /** Matches of consecutive pattern pieces on consecutive text pieces
      compose. */
  lemma MatchesJoin(p: seq<CharClass>, q: seq<CharClass>, a: string, b: string)
    requires |p| == |a| && MatchesAtStart(p, a) && MatchesAtStart(q, b)
    ensures MatchesAtStart(p + q, a + b)
  {
    forall i | 0 <= i < |p + q| ensures Accepts((p + q)[i], (a + b)[i]) {
      if i >= |p| {
        assert (p + q)[i] == q[i - |p|] && (a + b)[i] == b[i - |a|];
      }
    }
  }

  /** A match at the start ignores whatever follows. */
  lemma MatchesExtend(p: seq<CharClass>, a: string, rest: string)
    requires MatchesAtStart(p, a)
    ensures MatchesAtStart(p, a + rest)
  {
    assert forall i :: 0 <= i < |a| ==> (a + rest)[i] == a[i];
  }

  /** No command belongs to two categories, so the order in which the
      patterns are tried does not matter. */
  lemma CategoriesExclusive(cmd: string, c1: Category, c2: Category)
    requires InCategory(c1, cmd) && InCategory(c2, cmd)
    ensures c1 == c2
  {
    PatternHeads();
    assert Accepts(Pattern(c1)[0], cmd[0]) && Accepts(Pattern(c2)[0], cmd[0]);
    if c1.DomainName? || c1.SshEncryption? {
      assert Accepts(Pattern(c1)[3], cmd[3]);
      if c2.DomainName? || c2.SshEncryption? {
        assert Accepts(Pattern(c2)[3], cmd[3]);
      }
    }
  }

  /** "ip domain-name test.com" and "ip domain name test.com" are both
      domain commands, and so is anything that merely starts like one. */
  lemma DomainSpellings(sep: char, rest: string)
    requires sep == '-' || sep == ' '
    ensures Classify("ip domain" + [sep] + "name test.com" + rest) == Some(DomainName)
  {
    LiteralSelf("ip domain");
    EitherSelf('-', ' ', sep);
    MatchesJoin(Literal("ip domain"), [EitherOf('-', ' ')], "ip domain", [sep]);
    LiteralSelf("name test.com");
    MatchesJoin(Literal("ip domain") + [EitherOf('-', ' ')], Literal("name test.com"), "ip domain" + [sep], "name test.com");
    MatchesExtend(Pattern(DomainName), "ip domain" + [sep] + "name test.com", rest);
  }

  /** Both NTP key numbers and both hash variants are accepted, followed by
      anything. */
  lemma NtpVariants(key: char, hash: char, rest: string)
    requires key == '1' || key == '2'
    requires hash == '1' || hash == '2'
    ensures Classify(NtpCommand(key, hash, rest)) == Some(NtpKey)
  {
    var a := Literal("ntp ");
    var b := Literal("authentication-key 3");
    var e := [EitherOf('1', '2')];
    var d := Literal(" sha");
    LiteralSelf("ntp ");
    LiteralSelf("authentication-key 3");
    LiteralSelf(" sha");
    EitherSelf('1', '2', key);
    EitherSelf('1', '2', hash);
    MatchesJoin(a, b, "ntp ", "authentication-key 3");
    MatchesJoin(a + b, e, "ntp " + "authentication-key 3", [key]);
    MatchesJoin(a + b + e, d, "ntp " + "authentication-key 3" + [key], " sha");
    MatchesJoin(a + b + e + d, e, "ntp " + "authentication-key 3" + [key] + " sha", [hash]);
    MatchesExtend(Pattern(NtpKey), "ntp " + "authentication-key 3" + [key] + " sha" + [hash], rest);
    var s := NtpCommand(key, hash, rest);
    assert InCategory(NtpKey, s);
    if InCategory(DomainName, s) { CategoriesExclusive(s, DomainName, NtpKey); }
    if InCategory(SshEncryption, s) { CategoriesExclusive(s, SshEncryption, NtpKey); }
    if InCategory(AaaPolicy, s) { CategoriesExclusive(s, AaaPolicy, NtpKey); }
    if InCategory(RestrictedUser, s) { CategoriesExclusive(s, RestrictedUser, NtpKey); }
  }

  /** Both syslog ports are accepted, and each unescaped `.` of the host
      address accepts any character but a newline ("192x168y1z1" too). */
  lemma LoggingHostVariants(host: string, port: char)
    requires port == '4' || port == '6'
    requires |host| == 11 && host[..3] == "192" && host[4..7] == "168" && host[8] == '1' && host[10] == '1'
    requires host[3] != '\n' && host[7] != '\n' && host[9] != '\n'
    ensures InCategory(LoggingHost, "logging host " + host + " transport udp port 1051" + [port])
  {
    var a := "logging host ";
    var b := " transport udp port 1051";
    var s := a + host + b + [port];
    var p := Pattern(LoggingHost);
    assert |a| == 13 && |b| == 24;
    forall i | 0 <= i < |p| ensures Accepts(p[i], s[i]) {
      if i < 13 {
        assert p[i] == Literal(a)[i] && s[i] == a[i];
      } else if i < 24 {
        assert p[i] == Literal("192.168.1.1")[i - 13] && s[i] == host[i - 13];
        var h := i - 13;
        if h < 3 {
          assert host[h] == host[..3][h];
        } else if 4 <= h < 7 {
          assert host[h] == host[4..7][h - 4];
        }
      } else if i < 48 {
        assert p[i] == Literal(b)[i - 24] && s[i] == b[i - 24];
      }
    }
  }

  // ---------------------------------------------------------------------
  // The section loop as written

  /** How the handler as written ends abnormally: `any()` called with six
      arguments, or `"\n".join` applied to an exception object; both raise a
      TypeError. */
  datatype Crash = AnyGivenSixArguments | JoinOfException

  /** All six patterns match the command (the only case in which `None` is
      not among the six match results). */
  predicate AllSixMatch(cmd: string) {
    && InCategory(DomainName, cmd) && InCategory(SshEncryption, cmd) && InCategory(AaaPolicy, cmd)
    && InCategory(RestrictedUser, cmd) && InCategory(NtpKey, cmd) && InCategory(LoggingHost, cmd)
  }

  lemma NeverAllSix(cmd: string)
    ensures !AllSixMatch(cmd)
  {
    if AllSixMatch(cmd) {
      CategoriesExclusive(cmd, DomainName, SshEncryption);
    }
  }

  /** One command as written: the inner loop visits each running line; on
      the first visit `None in (...)` holds (see `NeverAllSix`) and `any`
      raises. The unreachable branch would append the command once per
      running line. */
  function CommandAsWritten(cmd: string, running: set<string>): Result<seq<string>, Crash> {
    if running == {} then Ok([])
    else if !AllSixMatch(cmd) then Err(AnyGivenSixArguments)
    else if cmd in running then Ok([])
    else Ok(seq(|running|, _ => cmd))
  }

  function SectionAsWritten(commands: seq<string>, running: set<string>): Result<seq<string>, Crash> {
    if commands == [] then Ok([])
    else match CommandAsWritten(Strip(commands[0]), running)
      case Err(e) => Err(e)
      case Ok(m) =>
        match SectionAsWritten(commands[1..], running)
        case Err(e) => Err(e)
        case Ok(rest) => Ok(m + rest)
  }

  /** The keys the handler compares: those of the document itself. */
  function Keys(doc: Document): (keys: seq<string>)
    ensures |keys| == |doc|
    ensures forall i :: 0 <= i < |doc| ==> keys[i] == doc[i].key
  {
    seq(|doc|, i requires 0 <= i < |doc| => doc[i].key)
  }

  /** The commands the document lists under `key`, from its first section
      with that key; `None` when no section has it. */
  function Lookup(doc: Document, key: string): Option<seq<string>> {
    if doc == [] then None
    else if doc[0].key == key then Some(doc[0].commands)
    else Lookup(doc[1..], key)
  }

  /** A JSON object has each key once. */
  ghost predicate DistinctKeys(doc: Document) {
    forall i, j :: 0 <= i < j < |doc| ==> doc[i].key != doc[j].key
  }

  /** Every compared key is found, so the "not found in golden config" branch
      never fires; with distinct keys the lookup returns the section's own
      commands. */
  lemma {:induction false} LookupOwnKeys(doc: Document, i: int)
    requires 0 <= i < |doc|
    ensures Lookup(doc, Keys(doc)[i]).Some?
    ensures DistinctKeys(doc) ==> Lookup(doc, Keys(doc)[i]) == Some(doc[i].commands)
  {
    if i > 0 && doc[0].key != doc[i].key {
      assert Keys(doc[1..])[i - 1] == doc[i].key;
      LookupOwnKeys(doc[1..], i - 1);
    }
  }

  function SectionsAsWrittenFrom(doc: Document, keys: seq<string>, running: set<string>): Result<seq<Missing>, Crash> {
    if keys == [] then Ok([])
    else
      var here := match Lookup(doc, keys[0])
        case None => Ok([])
        case Some(cmds) => SectionAsWritten(cmds, running);
      match here
      case Err(e) => Err(e)
      case Ok(m) =>
        match SectionsAsWrittenFrom(doc, keys[1..], running)
        case Err(e) => Err(e)
        case Ok(rest) => Ok((if m == [] then [] else [Missing(keys[0], m)]) + rest)
  }

  /** The section loop of the handler as written: it never records a missing
      command, it cannot fail on an empty running view, and the only way it
      fails is the call of `any` with six arguments. */
  function SectionsAsWritten(doc: Document, running: set<string>): (r: Result<seq<Missing>, Crash>)
    ensures r.Ok? ==> r.value == []
    ensures r.Err? ==> r.error == AnyGivenSixArguments
    ensures running == {} ==> r.Ok?
  {
    SectionsAsWrittenFromNothing(doc, Keys(doc), running);
    SectionsAsWrittenFrom(doc, Keys(doc), running)
  }

  lemma {:induction false} SectionsAsWrittenFromNothing(doc: Document, keys: seq<string>, running: set<string>)
    ensures SectionsAsWrittenFrom(doc, keys, running) == Ok([])
            || SectionsAsWrittenFrom(doc, keys, running) == Err(AnyGivenSixArguments)
    ensures running == {} ==> SectionsAsWrittenFrom(doc, keys, running) == Ok([])
  {
    if keys != [] {
      if Lookup(doc, keys[0]).Some? {
        SectionAsWrittenOutcome(Lookup(doc, keys[0]).value, running);
      }
      SectionsAsWrittenFromNothing(doc, keys[1..], running);
      var none: seq<Missing> := [];
      assert none + none == none;
    }
  }

  /** Some section holds at least one command. */
  ghost predicate HasCommand(doc: Document) {
    exists i :: 0 <= i < |doc| && doc[i].commands != []
  }

  lemma {:induction false} SectionAsWrittenOutcome(commands: seq<string>, running: set<string>)
    ensures SectionAsWritten(commands, running)
            == if running != {} && commands != [] then Err(AnyGivenSixArguments) else Ok([])
  {
    if commands != [] {
      NeverAllSix(Strip(commands[0]));
      SectionAsWrittenOutcome(commands[1..], running);
      if running == {} {
        assert CommandAsWritten(Strip(commands[0]), running) == Ok([]);
        assert SectionAsWritten(commands[1..], running) == Ok([]);
        var none: seq<string> := [];
        assert none + none == none;
        assert SectionAsWritten(commands, running) == Ok(none + none);
      } else {
        assert CommandAsWritten(Strip(commands[0]), running) == Err(AnyGivenSixArguments);
      }
    }
  }

  lemma {:induction false} SectionsAsWrittenFromOutcome(doc: Document, j: nat, running: set<string>)
    requires DistinctKeys(doc)
    requires j <= |doc|
    ensures SectionsAsWrittenFrom(doc, Keys(doc)[j..], running)
            == if running != {} && exists i :: j <= i < |doc| && doc[i].commands != []
               then Err(AnyGivenSixArguments) else Ok([])
    decreases |doc| - j
  {
    if j < |doc| {
      var keys := Keys(doc)[j..];
      assert keys[0] == doc[j].key;
      assert keys[1..] == Keys(doc)[j + 1..];
      LookupOwnKeys(doc, j);
      SectionAsWrittenOutcome(doc[j].commands, running);
      SectionsAsWrittenFromOutcome(doc, j + 1, running);
      var later := exists i :: j + 1 <= i < |doc| && doc[i].commands != [];
      var rest := SectionsAsWrittenFrom(doc, keys[1..], running);
      if running == {} || doc[j].commands == [] {
        assert SectionAsWritten(doc[j].commands, running) == Ok([]);
        if rest.Ok? {
          var none: seq<Missing> := [];
          assert none + rest.value == rest.value;
        }
        assert SectionsAsWrittenFrom(doc, keys, running) == rest;
        if exists i :: j <= i < |doc| && doc[i].commands != [] {
          var i :| j <= i < |doc| && doc[i].commands != [];
          if i > j {
            assert later;
          }
        }
      } else {
        assert SectionAsWritten(doc[j].commands, running) == Err(AnyGivenSixArguments);
        assert SectionsAsWrittenFrom(doc, keys, running) == Err(AnyGivenSixArguments);
      }
    }
  }

  /** As written, the comparison raises as soon as the running view is
      non-empty and some section holds a command; otherwise it records
      nothing missing at all. */
  lemma SectionsAsWrittenOutcome(doc: Document, running: set<string>)
    requires DistinctKeys(doc)
    ensures SectionsAsWritten(doc, running)
            == if running != {} && HasCommand(doc) then Err(AnyGivenSixArguments) else Ok([])
  {
    SectionsAsWrittenFromOutcome(doc, 0, running);
    assert Keys(doc)[0..] == Keys(doc);
  }

  // ---------------------------------------------------------------------
  // The section loop under the intended rule (an interpretation)

  /** A command is met when its exact text is a running line, or when it
      belongs to a category and some running line belongs to that category. */
  predicate CommandMet(cmd: string, running: set<string>) {
    || cmd in running
    || (Classify(cmd).Some? && exists line :: line in running && InCategory(Classify(cmd).value, line))
  }

  function Unmet(running: set<string>): string -> bool {
    (c: string) => !CommandMet(Strip(c), running)
  }

  /** The stripped commands of one section that are not met, in section
      order. */
  function SectionMissing(commands: seq<string>, running: set<string>): (missing: seq<string>)
    ensures IsFilterMap(missing, commands, Unmet(running), Strip)
  {
    FilterMapSpec(commands, Unmet(running), Strip);
    FilterMap(commands, Unmet(running), Strip)
  }

  function MissingFrom(doc: Document, keys: seq<string>, running: set<string>): seq<Missing> {
    if keys == [] then []
    else
      var here := match Lookup(doc, keys[0])
        case None => []
        case Some(cmds) => SectionMissing(cmds, running);
      (if here == [] then [] else [Missing(keys[0], here)]) + MissingFrom(doc, keys[1..], running)
  }

  /** The missing-commands map under the intended rule. */
  function MissingBySection(doc: Document, running: set<string>): seq<Missing> {
    MissingFrom(doc, Keys(doc), running)
  }

  function HasMissing(running: set<string>): Section -> bool {
    (s: Section) => SectionMissing(s.commands, running) != []
  }

  function MissingOf(running: set<string>): Section -> Missing {
    (s: Section) => Missing(s.key, SectionMissing(s.commands, running))
  }

  /** One step of the section loop: the first key's section contributes its
      unmet commands, if any. */
  lemma MissingFromStep(doc: Document, keys: seq<string>, running: set<string>, cmds: seq<string>)
    requires keys != [] && Lookup(doc, keys[0]) == Some(cmds)
    ensures var here := SectionMissing(cmds, running);
            MissingFrom(doc, keys, running)
            == (if here == [] then [] else [Missing(keys[0], here)]) + MissingFrom(doc, keys[1..], running)
  {
  }

  lemma {:induction false} MissingFromIsFilter(doc: Document, j: nat, running: set<string>)
    requires DistinctKeys(doc)
    requires j <= |doc|
    ensures MissingFrom(doc, Keys(doc)[j..], running) == FilterMap(doc[j..], HasMissing(running), MissingOf(running))
    decreases |doc| - j
  {
    if j < |doc| {
      var keys := Keys(doc)[j..];
      assert keys[0] == doc[j].key;
      assert keys[1..] == Keys(doc)[j + 1..];
      assert doc[j..][1..] == doc[j + 1..];
      LookupOwnKeys(doc, j);
      assert Lookup(doc, keys[0]) == Some(doc[j].commands);
      MissingFromStep(doc, keys, running, doc[j].commands);
      var here := SectionMissing(doc[j].commands, running);
      assert HasMissing(running)(doc[j]) == (here != []);
      assert MissingOf(running)(doc[j]) == Missing(doc[j].key, here);
      MissingFromIsFilter(doc, j + 1, running);
    }
  }

  /** The map lists, in document order, exactly the sections with at least
      one unmet command, each with its unmet commands. */
  lemma MissingBySectionSpec(doc: Document, running: set<string>)
    requires DistinctKeys(doc)
    ensures IsFilterMap(MissingBySection(doc, running), doc, HasMissing(running), MissingOf(running))
  {
    MissingFromIsFilter(doc, 0, running);
    assert doc[0..] == doc;
    assert Keys(doc)[0..] == Keys(doc);
    FilterMapSpec(doc, HasMissing(running), MissingOf(running));
  }

  /** A command is reported missing exactly when it is neither present
      literally nor covered by its category. */
  lemma SectionMissingIff(commands: seq<string>, running: set<string>, cmd: string)
    ensures cmd in SectionMissing(commands, running)
            <==> exists i :: 0 <= i < |commands| && Strip(commands[i]) == cmd && !CommandMet(cmd, running)
  {
    FilterMapMember(commands, Unmet(running), Strip, cmd);
  }

  /** A command of a category is met by any running line of that category,
      and by nothing else but its own text. */
  lemma CategoryCommandMet(cmd: string, c: Category, running: set<string>)
    requires InCategory(c, cmd)
    ensures CommandMet(cmd, running) <==> cmd in running || exists line :: line in running && InCategory(c, line)
  {
    CategoriesExclusive(cmd, c, Classify(cmd).value);
  }

  /** An NTP key command: either key number, either hash, anything after. */
  function NtpCommand(key: char, hash: char, rest: string): string {
    "ntp " + "authentication-key 3" + [key] + " sha" + [hash] + rest
  }

  /** NTP key commands stand in for each other: "ntp authentication-key 31
      sha1 ..." is met by a running "ntp authentication-key 32 sha2 ...", and
      is unmet when it is absent and no running line is an NTP key line. */
  lemma NtpCommandsInterchangeable(key: char, hash: char, rest: string, key': char, hash': char, rest': string,
                                   running: set<string>)
    requires key == '1' || key == '2'
    requires hash == '1' || hash == '2'
    requires key' == '1' || key' == '2'
    requires hash' == '1' || hash' == '2'
    ensures NtpCommand(key', hash', rest') in running ==> CommandMet(NtpCommand(key, hash, rest), running)
    ensures NtpCommand(key, hash, rest) !in running && (forall line :: line in running ==> !InCategory(NtpKey, line))
            ==> !CommandMet(NtpCommand(key, hash, rest), running)
  {
    NtpVariants(key, hash, rest);
    NtpVariants(key', hash', rest');
  }

  // ---------------------------------------------------------------------
  // Formatting

  /** Each command on its own line behind a two-space indent; taking the
      indent off gives the command back. */
  function Indent(commands: seq<string>): (lines: seq<string>)
    ensures |lines| == |commands|
    ensures forall i :: 0 <= i < |lines| ==> StartsWith(lines[i], "  ") && lines[i][2..] == commands[i]
  {
    seq(|commands|, i requires 0 <= i < |commands| => "  " + commands[i])
  }

  /** The line that opens one section's entry in the report. */
  function Header(key: string): string {
    "\nSection " + key + ": Missing commands:"
  }

  /** One header line per listed section, followed by its commands indented
      by two spaces. */
  function FormatReport(missing: seq<Missing>): (lines: seq<string>)
    ensures |lines| == LineCount(missing)
  {
    if missing == [] then []
    else [Header(missing[0].key)] + Indent(missing[0].commands) + FormatReport(missing[1..])
  }

  /** Lines in the report: one per section plus one per missing command. */
  function LineCount(missing: seq<Missing>): nat {
    if missing == [] then 0 else 1 + |missing[0].commands| + LineCount(missing[1..])
  }

  lemma {:induction false} FormatReportShape(missing: seq<Missing>)
    ensures |FormatReport(missing)| == LineCount(missing)
    ensures FormatReport(missing) == [] <==> missing == []
    ensures missing != [] ==> FormatReport(missing)[0] == Header(missing[0].key)
  {
    if missing != [] {
      FormatReportShape(missing[1..]);
    }
  }

  /** The sections are formatted one after another: the report of two lists
      of sections is the first's report followed by the second's. */
  lemma {:induction false} FormatReportAppend(a: seq<Missing>, b: seq<Missing>)
    ensures FormatReport(a + b) == FormatReport(a) + FormatReport(b)
    decreases |a|
  {
    if a == [] {
      assert a + b == b;
    } else {
      assert (a + b)[1..] == a[1..] + b;
      FormatReportAppend(a[1..], b);
    }
  }

  /** One section's entry: its header, then each of its missing commands
      behind a two-space indent, in order. */
  lemma FormatReportOne(m: Missing)
    ensures |FormatReport([m])| == 1 + |m.commands|
    ensures FormatReport([m])[0] == Header(m.key)
    ensures forall i :: 0 <= i < |m.commands| ==> FormatReport([m])[i + 1] == "  " + m.commands[i]
  {
    var lines := FormatReport([m]);
    assert [m][1..] == [];
    assert lines == [Header(m.key)] + Indent(m.commands);
    forall i | 0 <= i < |m.commands| ensures lines[i + 1] == "  " + m.commands[i] {
      assert lines[i + 1] == Indent(m.commands)[i];
      assert Indent(m.commands)[i][..2] == "  ";
    }
  }

  // ---------------------------------------------------------------------
  // ACL line cleanup

  /** The line with its leading run of decimal digits removed. */
  function LStripDigits(line: string): string {
    line[LeadingDigits(line)..]
  }

  /** `line[-1]` on an empty line raises IndexError. */
  datatype CleanupError = EmptyLine

  /** `v` is `t` cut just before its first '(' (all of `t` when it has
      none), with the blanks around the cut stripped. */
  ghost predicate CutAtFirstParen(t: string, v: string) {
    exists k :: 0 <= k <= |t| && (k == |t| || t[k] == '(')
      && (forall m :: 0 <= m < k ==> t[m] != '(')
      && v == Strip(t[..k])
  }

  lemma CutAtFirstParenHere(t: string)
    ensures CutAtFirstParen(t, Strip(t[..IndexOf(t, '(')]))
    ensures forall k :: 0 <= k < |Strip(t[..IndexOf(t, '(')])| ==> Strip(t[..IndexOf(t, '(')])[k] != '('
  {
    var k := IndexOf(t, '(');
    StripAvoids(t[..k], '(');
  }

  /** An ACL output line without its enumerator and the blanks around it. */
  function AclText(line: string): string {
    Strip(LStripDigits(line))
  }

  /** One line of `show access-list` output without its enumerator and its
      trailing `(n matches)` counter. */
  function CleanAclLine(line: string): (r: Result<string, CleanupError>)
    ensures r.Err? <==> AclText(line) == ""
    ensures r.Ok? ==> IsTrimmed(r.value)
    ensures r.Ok? && AclText(line)[|AclText(line)| - 1] == ')' ==> CutAtFirstParen(AclText(line), r.value)
    ensures r.Ok? && AclText(line)[|AclText(line)| - 1] == ')' ==> forall k :: 0 <= k < |r.value| ==> r.value[k] != '('
    ensures r.Ok? && AclText(line)[|AclText(line)| - 1] != ')' ==> r.value == AclText(line)
  {
    var t := AclText(line);
    if t == "" then Err(EmptyLine)
    else if t[|t| - 1] == ')' then
      CutAtFirstParenHere(t);
      Ok(Strip(t[..IndexOf(t, '(')]))
    else Ok(t)
  }

  /** A rule line "N <rule> (<counter>)" cleans to the bare rule. */
  lemma CleanAclLineShape(enumerator: string, rule: string, counter: string)
    requires forall k :: 0 <= k < |enumerator| ==> IsDigit(enumerator[k])
    requires rule != [] && IsTrimmed(rule) && !IsDigit(rule[0])
    requires forall k :: 0 <= k < |rule| ==> rule[k] != '('
    ensures CleanAclLine(enumerator + " " + rule + " (" + counter + ")") == Ok(rule)
  {
    var core := rule + " (" + counter + ")";
    var line := enumerator + " " + rule + " (" + counter + ")";
    CutCounter(rule, counter);
    assert line == enumerator + " " + core;
    StripEnumerator(enumerator, core);
    var t := AclText(line);
    assert t == core;
    assert t != "" && t[|t| - 1] == ')';
    assert CleanAclLine(line) == Ok(Strip(t[..IndexOf(t, '(')]));
  }

  /** The enumerator and the blank after it go. */
  lemma StripEnumerator(enumerator: string, core: string)
    requires forall k :: 0 <= k < |enumerator| ==> IsDigit(enumerator[k])
    requires core != [] && IsTrimmed(core)
    ensures AclText(enumerator + " " + core) == core
  {
    var after := " " + core;
    assert enumerator + " " + core == enumerator + after;
    LeadingDigitsOver(enumerator, after);
    StripAround(" ", core, "");
    assert " " + core + "" == after;
  }

  /** The counter and the blank before it go. */
  lemma CutCounter(rule: string, counter: string)
    requires rule != [] && IsTrimmed(rule)
    requires forall k :: 0 <= k < |rule| ==> rule[k] != '('
    ensures var core := rule + " (" + counter + ")";
            && IsTrimmed(core) && core[|core| - 1] == ')'
            && Strip(core[..IndexOf(core, '(')]) == rule
  {
    var head := rule + " ";
    var tail := "(" + counter + ")";
    var core := rule + " (" + counter + ")";
    assert core == head + tail;
    assert core[0] == rule[0] && core[|core| - 1] == tail[|tail| - 1] == ')';
    CutAtParen(head, tail);
    StripAround("", rule, " ");
    assert "" + rule + " " == head;
  }

  /** The first `(` of the counter is where the cut falls. */
  lemma CutAtParen(head: string, tail: string)
    requires forall k :: 0 <= k < |head| ==> head[k] != '('
    requires tail != [] && tail[0] == '('
    ensures (head + tail)[..IndexOf(head + tail, '(')] == head
  {
    IndexOfOver(head, '(', tail);
    assert (head + tail)[..|head|] == head;
  }

  /** The cleanup applied to every line; the first empty line raises. */
  function CleanAclEntries(lines: seq<string>): (r: Result<seq<string>, CleanupError>)
    ensures r.Ok? ==> |r.value| == |lines|
  {
    MapAll(lines, CleanAclLine)
  }

  /** The cleanup succeeds exactly when no line is blank once cleaned, and
      then cleans each line on its own. */
  lemma CleanAclEntriesSpec(lines: seq<string>)
    ensures CleanAclEntries(lines).Ok? <==> forall i :: 0 <= i < |lines| ==> CleanAclLine(lines[i]).Ok?
    ensures CleanAclEntries(lines).Ok? ==>
              forall i :: 0 <= i < |lines| ==> CleanAclEntries(lines).value[i] == CleanAclLine(lines[i]).value
  {
    MapAllSpec(lines, CleanAclLine);
  }

  /** The lists the handler cleans are created empty just before the loops,
      so as written the cleanup transforms nothing. */
  const AclEntriesAsWritten: seq<string> := []

  lemma CleanupAsWrittenIsNoOp()
    ensures CleanAclEntries(AclEntriesAsWritten) == Ok([])
  {
  }

  // ---------------------------------------------------------------------
  // Aggregation and verdict

  function AclLists(golden: JsonGolden, out: Baseline.DeviceOutput): seq<string> {
    Baseline.AclMissing(golden.acl1, "1", out.acl1)
    + Baseline.AclMissing(golden.acl2, "2", out.acl2)
    + Baseline.AclMissing(golden.acl5, "5", out.acl5)
    + Baseline.AclMissing(golden.acl55, "55", out.acl55)
  }

  /** The report under the intended rule: section lines, then the ACLs. */
  function Report(golden: JsonGolden, out: Baseline.DeviceOutput): (r: string)
    ensures r == Baseline.CompliantText
            <==> MissingBySection(golden.doc, RunningSet(out.runningConfig)) == [] && AclLists(golden, out) == []
    ensures r != Baseline.CompliantText ==> StartsWith(r, Baseline.NotCompliantPrefix)
  {
    var running := RunningSet(out.runningConfig);
    FormatReportShape(MissingBySection(golden.doc, running));
    Baseline.Verdict(FormatReport(MissingBySection(golden.doc, running)) + AclLists(golden, out))
  }

  /** The report as the handler computes it. */
  function ReportAsWritten(golden: JsonGolden, out: Baseline.DeviceOutput): (r: Result<string, Crash>)
    ensures r.Err? ==> r.error == AnyGivenSixArguments
    ensures r.Ok? ==> (r.value == Baseline.CompliantText <==> AclLists(golden, out) == [])
  {
    assert FormatReport([]) == [];
    match SectionsAsWritten(golden.doc, RunningSet(out.runningConfig))
    case Err(e) => Err(e)
    case Ok(missing) => Ok(Baseline.Verdict(FormatReport(missing) + AclLists(golden, out)))
  }

  /** The handler as written: a session that failed with one of the four
      named exceptions is skipped; any other failure reaches the catch-all
      branch, whose join of the exception raises; the first device that
      answered gets the report. */
  function SubmitAsWritten(golden: JsonGolden, attempts: seq<Baseline.Attempt>): (r: Option<Result<string, Crash>>)
    ensures r.None? <==> forall k :: 0 <= k < |attempts| ==> attempts[k] == Baseline.Unreachable(Baseline.NamedFailure)
  {
    if attempts == [] then None
    else match attempts[0]
      case Unreachable(NamedFailure) => SubmitAsWritten(golden, attempts[1..])
      case Unreachable(OtherFailure) => Some(Err(JoinOfException))
      case Reached(out) => Some(ReportAsWritten(golden, out))
  }

  /** The handler as intended: every failed session is skipped, as the
      catch-all branch's `continue` shows, and the first device that
      answered gets the report under the intended rule. */
  function Submit(golden: JsonGolden, attempts: seq<Baseline.Attempt>): (r: Option<string>)
    ensures r.Some? <==> exists k :: 0 <= k < |attempts| && attempts[k].Reached?
  {
    Baseline.FirstReachedSpec(attempts);
    match Baseline.FirstReached(attempts)
    case None => None
    case Some(out) => Some(Report(golden, out))
  }

  /** As written, an unexpected session failure before the first device
      that answered ends the request with a TypeError. */
  lemma {:induction false} SubmitAsWrittenOtherFailure(golden: JsonGolden, attempts: seq<Baseline.Attempt>, k: nat)
    requires k < |attempts| && attempts[k] == Baseline.Unreachable(Baseline.OtherFailure)
    requires forall m :: 0 <= m < k ==> attempts[m] == Baseline.Unreachable(Baseline.NamedFailure)
    ensures SubmitAsWritten(golden, attempts) == Some(Err(JoinOfException))
    decreases k
  {
    if k > 0 {
      forall m | 0 <= m < k - 1 ensures attempts[1..][m] == Baseline.Unreachable(Baseline.NamedFailure) {
        assert attempts[1..][m] == attempts[m + 1];
      }
      SubmitAsWrittenOtherFailure(golden, attempts[1..], k - 1);
    }
  }

  /** As written, a device that answered after sessions that failed only
      with the named exceptions gets the as-written report. */
  lemma {:induction false} SubmitAsWrittenFirstReached(golden: JsonGolden, attempts: seq<Baseline.Attempt>, k: nat)
    requires k < |attempts| && attempts[k].Reached?
    requires forall m :: 0 <= m < k ==> attempts[m] == Baseline.Unreachable(Baseline.NamedFailure)
    ensures SubmitAsWritten(golden, attempts) == Some(ReportAsWritten(golden, attempts[k].output))
    decreases k
  {
    if k > 0 {
      forall m | 0 <= m < k - 1 ensures attempts[1..][m] == Baseline.Unreachable(Baseline.NamedFailure) {
        assert attempts[1..][m] == attempts[m + 1];
      }
      SubmitAsWrittenFirstReached(golden, attempts[1..], k - 1);
    }
  }

  /** As intended, the handler answers exactly when some device answered,
      and then with the report of the first one that did, whatever the
      failures before it. */
  lemma SubmitFirstReached(golden: JsonGolden, attempts: seq<Baseline.Attempt>)
    ensures Submit(golden, attempts).Some? <==> exists k :: 0 <= k < |attempts| && attempts[k].Reached?
    ensures forall k :: 0 <= k < |attempts| && attempts[k].Reached?
                        && (forall m :: 0 <= m < k ==> attempts[m].Unreachable?)
                        ==> Submit(golden, attempts) == Some(Report(golden, attempts[k].output))
  {
    Baseline.FirstReachedSpec(attempts);
  }

  /** Every command of every section is met. */
  ghost predicate AllCommandsMet(doc: Document, running: set<string>) {
    forall i, k :: 0 <= i < |doc| && 0 <= k < |doc[i].commands| ==> CommandMet(Strip(doc[i].commands[k]), running)
  }

  lemma {:induction false} NoSectionMissingIffAllMet(doc: Document, running: set<string>)
    requires DistinctKeys(doc)
    ensures MissingBySection(doc, running) == [] <==> AllCommandsMet(doc, running)
  {
    MissingFromIsFilter(doc, 0, running);
    assert doc[0..] == doc;
    assert Keys(doc)[0..] == Keys(doc);
    FilterMapEmpty(doc, HasMissing(running), MissingOf(running));
    forall i | 0 <= i < |doc|
      ensures SectionMissing(doc[i].commands, running) == []
              <==> forall k :: 0 <= k < |doc[i].commands| ==> CommandMet(Strip(doc[i].commands[k]), running)
    {
      FilterMapEmpty(doc[i].commands, Unmet(running), Strip);
    }
  }

  /** Under the intended rule the device is compliant exactly when every
      section command and every ACL entry is met. */
  lemma ReportCompliantIff(golden: JsonGolden, out: Baseline.DeviceOutput)
    requires DistinctKeys(golden.doc)
    ensures Report(golden, out) == Baseline.CompliantText <==>
              && AllCommandsMet(golden.doc, RunningSet(out.runningConfig))
              && Baseline.AllMet(golden.acl1, Baseline.AclAliases("1"), Baseline.AclHaystack(out.acl1))
              && Baseline.AllMet(golden.acl2, Baseline.AclAliases("2"), Baseline.AclHaystack(out.acl2))
              && Baseline.AllMet(golden.acl5, Baseline.AclAliases("5"), Baseline.AclHaystack(out.acl5))
              && Baseline.AllMet(golden.acl55, Baseline.AclAliases("55"), Baseline.AclHaystack(out.acl55))
  {
    var running := RunningSet(out.runningConfig);
    NoSectionMissingIffAllMet(golden.doc, running);
    FormatReportShape(MissingBySection(golden.doc, running));
    Baseline.NothingMissingIffAllMet(golden.acl1, Baseline.AclAliases("1"), Baseline.AclHaystack(out.acl1));
    Baseline.NothingMissingIffAllMet(golden.acl2, Baseline.AclAliases("2"), Baseline.AclHaystack(out.acl2));
    Baseline.NothingMissingIffAllMet(golden.acl5, Baseline.AclAliases("5"), Baseline.AclHaystack(out.acl5));
    Baseline.NothingMissingIffAllMet(golden.acl55, Baseline.AclAliases("55"), Baseline.AclHaystack(out.acl55));
  }

  /** As written, a device answers with a report only when its running view
      is empty or the document has no command, and then only the ACLs
      decide. */
  lemma ReportAsWrittenOutcome(golden: JsonGolden, out: Baseline.DeviceOutput)
    requires DistinctKeys(golden.doc)
    ensures var running := RunningSet(out.runningConfig);
            ReportAsWritten(golden, out)
            == if running != {} && HasCommand(golden.doc) then Err(AnyGivenSixArguments)
               else Ok(Baseline.Verdict(AclLists(golden, out)))
  {
    SectionsAsWrittenOutcome(golden.doc, RunningSet(out.runningConfig));
    assert FormatReport([]) == [];
    assert [] + AclLists(golden, out) == AclLists(golden, out);
  }

  /** The running view of a device that returned one trimmed line. */
  lemma RunningSetOfOneLine(line: string)
    requires line != "" && IsTrimmed(line) && NoBreaks([line])
    ensures RunningSet(line) == {line}
  {
    StripTrimmed(line);
    RunningSetOfLines([line]);
    assert Join("\n", [line]) == line;
  }

  /** The discrepancy on a one-line device whose only line is the only
      command of the template: the handler as written raises, while the
      intended rule finds the command and reports the device compliant. */
  lemma CrashExample(key: string, cmd: string)
    requires cmd != "" && IsTrimmed(cmd) && NoBreaks([cmd])
    ensures var golden := JsonGolden([Section(key, [cmd])], [], [], [], []);
            var out := Baseline.DeviceOutput(cmd, "", "", "", "");
            && ReportAsWritten(golden, out) == Err(AnyGivenSixArguments)
            && Report(golden, out) == Baseline.CompliantText
  {
    var golden := JsonGolden([Section(key, [cmd])], [], [], [], []);
    var out := Baseline.DeviceOutput(cmd, "", "", "", "");
    RunningSetOfOneLine(cmd);
    assert DistinctKeys(golden.doc);
    CrashAsWritten(golden, out);
    CompliantIntended(golden, out);
  }

  lemma CrashAsWritten(golden: JsonGolden, out: Baseline.DeviceOutput)
    requires DistinctKeys(golden.doc)
    requires |golden.doc| == 1 && golden.doc[0].commands != []
    requires RunningSet(out.runningConfig) != {}
    ensures ReportAsWritten(golden, out) == Err(AnyGivenSixArguments)
  {
    assert golden.doc[0] in golden.doc;
    assert HasCommand(golden.doc);
    ReportAsWrittenOutcome(golden, out);
  }

  lemma CompliantIntended(golden: JsonGolden, out: Baseline.DeviceOutput)
    requires DistinctKeys(golden.doc)
    requires |golden.doc| == 1 && |golden.doc[0].commands| == 1
    requires RunningSet(out.runningConfig) == {golden.doc[0].commands[0]}
    requires golden.acl1 == golden.acl2 == golden.acl5 == golden.acl55 == []
    ensures Report(golden, out) == Baseline.CompliantText
  {
    var cmd := golden.doc[0].commands[0];
    var running := RunningSet(out.runningConfig);
    assert cmd in running;
    StripTrimmed(cmd);
    assert CommandMet(Strip(cmd), running);
    assert AllCommandsMet(golden.doc, running) by {
      forall i, k | 0 <= i < |golden.doc| && 0 <= k < |golden.doc[i].commands|
        ensures CommandMet(Strip(golden.doc[i].commands[k]), running)
      {
        assert i == 0 && k == 0;
      }
    }
    EmptyListAllMet(golden.acl1, Baseline.AclAliases("1"), Baseline.AclHaystack(out.acl1));
    EmptyListAllMet(golden.acl2, Baseline.AclAliases("2"), Baseline.AclHaystack(out.acl2));
    EmptyListAllMet(golden.acl5, Baseline.AclAliases("5"), Baseline.AclHaystack(out.acl5));
    EmptyListAllMet(golden.acl55, Baseline.AclAliases("55"), Baseline.AclHaystack(out.acl55));
    ReportCompliantIff(golden, out);
  }

  lemma EmptyListAllMet(golden: seq<Baseline.Entry>, aliases: Baseline.Aliases, haystack: string)
    requires golden == []
    ensures Baseline.AllMet(golden, aliases, haystack)
  {
  }
}

=== FILE: select.dfy ===
/** Order-preserving filter-and-map over a sequence, and an independent
    description of it by positions. Every "collect the entries that fail"
    loop in the scripts, and the inventory filter, is an instance. */
module Select {
  import opened Wrappers

  /** Keep the elements `keep` accepts, map each through `f`. */
  function FilterMap<T, U>(s: seq<T>, keep: T -> bool, f: T -> U): (r: seq<U>)
    ensures |r| <= |s|
  {
    if s == [] then []
    else (if keep(s[0]) then [f(s[0])] else []) + FilterMap(s[1..], keep, f)
  }

  /** `idx` lists, strictly increasing, exactly the positions of `s` whose
      element `keep` accepts. */
  ghost predicate EnumeratesKept<T>(idx: seq<int>, s: seq<T>, keep: T -> bool) {
    AllKept(idx, s, keep) && Increasing(idx) && NoneSkipped(idx, s, keep)
  }

  ghost predicate AllKept<T>(idx: seq<int>, s: seq<T>, keep: T -> bool) {
    forall k :: 0 <= k < |idx| ==> 0 <= idx[k] < |s| && keep(s[idx[k]])
  }

  ghost predicate Increasing(idx: seq<int>) {
    forall k, l :: 0 <= k < l < |idx| ==> idx[k] < idx[l]
  }

  ghost predicate NoneSkipped<T>(idx: seq<int>, s: seq<T>, keep: T -> bool) {
    forall i :: 0 <= i < |s| && keep(s[i]) ==> i in idx
  }

  /** `out` is `s` restricted to the elements `keep` accepts, each mapped
      through `f`, in their original order and with their multiplicity. */
  ghost predicate IsFilterMap<T, U>(out: seq<U>, s: seq<T>, keep: T -> bool, f: T -> U) {
    exists idx :: IsFilterMapVia(idx, out, s, keep, f)
  }

  ghost predicate IsFilterMapVia<T, U>(idx: seq<int>, out: seq<U>, s: seq<T>, keep: T -> bool, f: T -> U) {
    EnumeratesKept(idx, s, keep) && MapsThrough(idx, out, s, f)
  }

  ghost predicate MapsThrough<T, U>(idx: seq<int>, out: seq<U>, s: seq<T>, f: T -> U) {
    && |idx| == |out|
    && forall k :: 0 <= k < |out| ==> 0 <= idx[k] < |s| && out[k] == f(s[idx[k]])
  }

  /** Positions of the tail, each moved one place to the right. */
  function Shift(idx: seq<int>): (r: seq<int>)
    ensures |r| == |idx|
    ensures forall k :: 0 <= k < |idx| ==> r[k] == idx[k] + 1
  {
    seq(|idx|, k requires 0 <= k < |idx| => idx[k] + 1)
  }

  /** Positions of the tail, shifted, and preceded by 0 when the first
      element is accepted. */
  function Extend<T>(s: seq<T>, keep: T -> bool, idx': seq<int>): seq<int>
    requires s != []
  {
    (if keep(s[0]) then [0] else []) + Shift(idx')
  }

  lemma {:induction false} ExtendAllKept<T>(s: seq<T>, keep: T -> bool, idx': seq<int>)
    requires s != [] && AllKept(idx', s[1..], keep)
    ensures AllKept(Extend(s, keep, idx'), s, keep)
  {
    var idx := Extend(s, keep, idx');
    var h := if keep(s[0]) then 1 else 0;
    forall k | h <= k < |idx| ensures 0 <= idx[k] < |s| && keep(s[idx[k]]) {
      assert idx[k] == idx'[k - h] + 1;
      assert s[1..][idx'[k - h]] == s[idx[k]];
    }
  }

  lemma {:induction false} ExtendIncreasing<T>(s: seq<T>, keep: T -> bool, idx': seq<int>)
    requires s != [] && Increasing(idx') && AllKept(idx', s[1..], keep)
    ensures Increasing(Extend(s, keep, idx'))
  {
    var idx := Extend(s, keep, idx');
    var h := if keep(s[0]) then 1 else 0;
    forall k, l | 0 <= k < l < |idx| ensures idx[k] < idx[l] {
      assert idx[l] == idx'[l - h] + 1;
      if k >= h {
        assert idx[k] == idx'[k - h] + 1;
      }
    }
  }

  lemma {:induction false} ExtendNoneSkipped<T>(s: seq<T>, keep: T -> bool, idx': seq<int>)
    requires s != [] && NoneSkipped(idx', s[1..], keep)
    ensures NoneSkipped(Extend(s, keep, idx'), s, keep)
  {
    var idx := Extend(s, keep, idx');
    var h := if keep(s[0]) then 1 else 0;
    forall i | 0 <= i < |s| && keep(s[i]) ensures i in idx {
      if i > 0 {
        assert s[1..][i - 1] == s[i];
        var k :| 0 <= k < |idx'| && idx'[k] == i - 1;
        assert idx[k + h] == i;
      } else {
        assert idx[0] == 0;
      }
    }
  }

  lemma {:induction false} ExtendMapsThrough<T, U>(s: seq<T>, keep: T -> bool, f: T -> U, idx': seq<int>, rest: seq<U>)
    requires s != [] && MapsThrough(idx', rest, s[1..], f)
    ensures MapsThrough(Extend(s, keep, idx'), (if keep(s[0]) then [f(s[0])] else []) + rest, s, f)
  {
    var idx := Extend(s, keep, idx');
    var out := (if keep(s[0]) then [f(s[0])] else []) + rest;
    var h := if keep(s[0]) then 1 else 0;
    forall k | h <= k < |out| ensures 0 <= idx[k] < |s| && out[k] == f(s[idx[k]]) {
      assert idx[k] == idx'[k - h] + 1;
      assert out[k] == rest[k - h];
      assert s[1..][idx'[k - h]] == s[idx[k]];
    }
  }

  /** `FilterMap` meets the positional description. */
  lemma {:induction false} FilterMapSpec<T, U>(s: seq<T>, keep: T -> bool, f: T -> U)
    ensures IsFilterMap(FilterMap(s, keep, f), s, keep, f)
  {
    if s == [] {
      assert IsFilterMapVia([], [], s, keep, f);
    } else {
      var rest := FilterMap(s[1..], keep, f);
      FilterMapSpec(s[1..], keep, f);
      var idx' :| IsFilterMapVia(idx', rest, s[1..], keep, f);
      ExtendAllKept(s, keep, idx');
      ExtendIncreasing(s, keep, idx');
      ExtendNoneSkipped(s, keep, idx');
      ExtendMapsThrough(s, keep, f, idx', rest);
      assert IsFilterMapVia(Extend(s, keep, idx'), FilterMap(s, keep, f), s, keep, f);
    }
  }

  /** A value is in the result exactly when some accepted element maps to it. */
  lemma {:induction false} FilterMapMember<T, U>(s: seq<T>, keep: T -> bool, f: T -> U, x: U)
    ensures x in FilterMap(s, keep, f) <==> exists i :: 0 <= i < |s| && keep(s[i]) && f(s[i]) == x
  {
    if s != [] {
      FilterMapMember(s[1..], keep, f, x);
      if x in FilterMap(s[1..], keep, f) {
        var i :| 0 <= i < |s[1..]| && keep(s[1..][i]) && f(s[1..][i]) == x;
        assert s[i + 1] == s[1..][i];
      }
      if exists i :: 0 <= i < |s| && keep(s[i]) && f(s[i]) == x {
        var i :| 0 <= i < |s| && keep(s[i]) && f(s[i]) == x;
        if i > 0 {
          assert s[1..][i - 1] == s[i];
        }
      }
    }
  }

  /** The result is empty exactly when no element is accepted. */
  lemma {:induction false} FilterMapEmpty<T, U>(s: seq<T>, keep: T -> bool, f: T -> U)
    ensures FilterMap(s, keep, f) == [] <==> forall i :: 0 <= i < |s| ==> !keep(s[i])
  {
    if s != [] {
      FilterMapEmpty(s[1..], keep, f);
      if FilterMap(s, keep, f) == [] {
        forall i | 0 <= i < |s| ensures !keep(s[i]) {
          if i > 0 {
            assert s[1..][i - 1] == s[i];
          }
        }
      }
    }
  }

  /** Processing one more element appends at most that element's image. */
  lemma {:induction false} FilterMapSnoc<T, U>(s: seq<T>, x: T, keep: T -> bool, f: T -> U)
    ensures FilterMap(s + [x], keep, f) == FilterMap(s, keep, f) + (if keep(x) then [f(x)] else [])
  {
    if s == [] {
      assert [x][1..] == [];
    } else {
      assert (s + [x])[1..] == s[1..] + [x];
      FilterMapSnoc(s[1..], x, keep, f);
    }
  }

  /** Two runs agree when they accept the same positions and map the
      accepted ones to the same values. */
  lemma {:induction false} FilterMapCongruent<T, U>(s: seq<T>, t: seq<T>, keep: T -> bool, f: T -> U)
    requires |s| == |t|
    requires forall i :: 0 <= i < |s| ==> keep(s[i]) == keep(t[i])
    requires forall i :: 0 <= i < |s| && keep(s[i]) ==> f(s[i]) == f(t[i])
    ensures FilterMap(s, keep, f) == FilterMap(t, keep, f)
  {
    if s != [] {
      assert forall i :: 0 <= i < |s| - 1 ==> s[1..][i] == s[i + 1] && t[1..][i] == t[i + 1];
      FilterMapCongruent(s[1..], t[1..], keep, f);
    }
  }

  /** Map every element through a step that may fail; the first failure
      ends the walk and is the result. */
  function MapAll<T, U, E>(s: seq<T>, f: T -> Result<U, E>): (r: Result<seq<U>, E>)
    ensures r.Ok? ==> |r.value| == |s|
  {
    if s == [] then Ok([])
    else match f(s[0])
      case Err(e) => Err(e)
      case Ok(first) =>
        match MapAll(s[1..], f)
        case Err(e) => Err(e)
        case Ok(rest) => Ok([first] + rest)
  }

  /** The walk succeeds exactly when every step does, and then holds each
      step's value in place. */
  lemma {:induction false} MapAllSpec<T, U, E>(s: seq<T>, f: T -> Result<U, E>)
    ensures MapAll(s, f).Ok? <==> forall i :: 0 <= i < |s| ==> f(s[i]).Ok?
    ensures MapAll(s, f).Ok? ==> forall i :: 0 <= i < |s| ==> MapAll(s, f).value[i] == f(s[i]).value
  {
    if s != [] {
      MapAllSpec(s[1..], f);
      assert forall i :: 1 <= i < |s| ==> s[1..][i - 1] == s[i];
    }
  }
}

=== FILE: text.dfy ===
/** String primitives with the exact meaning the scripts get from Python:
    `str.isspace`, `str.strip`, `str.splitlines`, `in` on strings,
    `str.startswith`, `str.replace(pat, "")` and `sep.join`. */
module Text {

  /** The characters for which Python's `str.isspace()` holds: the ASCII
      controls TAB..CR, the separators 0x1C..0x1F, SPACE, NEL, NO-BREAK SPACE
      and the Unicode space separators. This is also what `\s` matches in a
      `re` pattern over `str`. */
  predicate IsSpace(c: char) {
    var n := c as int;
    || 9 <= n <= 13
    || 28 <= n <= 32
    || n == 0x85 || n == 0xA0 || n == 0x1680
    || 0x2000 <= n <= 0x200A
    || n == 0x2028 || n == 0x2029 || n == 0x202F || n == 0x205F || n == 0x3000
  }

  /** The line boundaries recognised by Python's `str.splitlines()`. */
  predicate IsLineBreak(c: char) {
    var n := c as int;
    || 10 <= n <= 13
    || 28 <= n <= 30
    || n == 0x85 || n == 0x2028 || n == 0x2029
  }

  predicate IsDigit(c: char) {
    '0' <= c <= '9'
  }

  /** No whitespace at either end: what `strip()` leaves behind. */
  predicate IsTrimmed(s: string) {
    s == [] || (!IsSpace(s[0]) && !IsSpace(s[|s| - 1]))
  }

  /** Length of the longest all-whitespace prefix of `s`. */
  function LeadingSpaces(s: string): (k: nat)
    ensures k <= |s|
    ensures forall i :: 0 <= i < k ==> IsSpace(s[i])
    ensures k < |s| ==> !IsSpace(s[k])
  {
    if s == [] || !IsSpace(s[0]) then 0 else 1 + LeadingSpaces(s[1..])
  }

  /** Length of the longest all-whitespace suffix of `s`. */
  function TrailingSpaces(s: string): (k: nat)
    ensures k <= |s|
    ensures forall i :: |s| - k <= i < |s| ==> IsSpace(s[i])
    ensures k < |s| ==> !IsSpace(s[|s| - 1 - k])
  {
    if s == [] || !IsSpace(s[|s| - 1]) then 0 else 1 + TrailingSpaces(s[..|s| - 1])
  }

  /** Python's `s.strip()`: the result is trimmed, and it is the piece of `s`
      left once the whitespace on both sides is cut away. */
  function Strip(s: string): (r: string)
    ensures IsTrimmed(r)
    ensures exists i :: StrippedAt(s, r, i)
  {
    var i := LeadingSpaces(s);
    var t := s[i..];
    var r := t[..|t| - TrailingSpaces(t)];
    assert StrippedAt(s, r, i);
    r
  }

  /** `r` sits at offset `i` of `s` with nothing but whitespace around it. */
  ghost predicate StrippedAt(s: string, r: string, i: int) {
    && 0 <= i <= i + |r| <= |s|
    && s[i..i + |r|] == r
    && (forall k :: 0 <= k < i ==> IsSpace(s[k]))
    && (forall k :: i + |r| <= k < |s| ==> IsSpace(s[k]))
  }

  /** Stripping a trimmed string changes nothing, so `strip()` is idempotent. */
  lemma StripTrimmed(s: string)
    requires IsTrimmed(s)
    ensures Strip(s) == s
  {
    if s != [] {
      assert LeadingSpaces(s) == 0;
      assert TrailingSpaces(s) == 0;
    }
  }

  /** Stripping only removes characters, so a character absent from `s` is
      absent from `Strip(s)`. */
  lemma StripAvoids(s: string, c: char)
    requires forall k :: 0 <= k < |s| ==> s[k] != c
    ensures forall k :: 0 <= k < |Strip(s)| ==> Strip(s)[k] != c
  {
    var r := Strip(s);
    var i :| StrippedAt(s, r, i);
    forall k | 0 <= k < |r| ensures r[k] != c {
      assert r[k] == s[i..i + |r|][k] == s[i + k];
    }
  }

  /** Every character of `s` is whitespace. */
  predicate AllSpace(s: string) {
    forall k :: 0 <= k < |s| ==> IsSpace(s[k])
  }

  lemma {:induction false} LeadingSpacesOver(a: string, x: string)
    requires AllSpace(a)
    requires x == [] || !IsSpace(x[0])
    ensures LeadingSpaces(a + x) == |a|
    decreases |a|
  {
    if a != [] {
      assert (a + x)[1..] == a[1..] + x;
      LeadingSpacesOver(a[1..], x);
    } else {
      assert a + x == x;
    }
  }

  lemma {:induction false} TrailingSpacesOver(x: string, b: string)
    requires AllSpace(b)
    requires x == [] || !IsSpace(x[|x| - 1])
    ensures TrailingSpaces(x + b) == |b|
    decreases |b|
  {
    if b != [] {
      assert (x + b)[..|x + b| - 1] == x + b[..|b| - 1];
      TrailingSpacesOver(x, b[..|b| - 1]);
    } else {
      assert x + b == x;
    }
  }

  /** Stripping removes exactly the whitespace around a trimmed core. */
  lemma StripAround(a: string, x: string, b: string)
    requires AllSpace(a) && AllSpace(b)
    requires x != [] && IsTrimmed(x)
    ensures Strip(a + x + b) == x
  {
    var s := a + x + b;
    assert s == a + (x + b);
    LeadingSpacesOver(a, x + b);
    var t := s[|a|..];
    assert t == x + b;
    TrailingSpacesOver(x, b);
    assert t[..|t| - |b|] == x;
  }

  /** Length of the longest run of non-whitespace characters at the start
      of `s`: what a greedy `\S+` (or `\S*`) consumes. */
  function LeadingNonSpaces(s: string): (k: nat)
    ensures k <= |s|
    ensures forall i :: 0 <= i < k ==> !IsSpace(s[i])
    ensures k < |s| ==> IsSpace(s[k])
  {
    if s == [] || IsSpace(s[0]) then 0 else 1 + LeadingNonSpaces(s[1..])
  }

  /** A word free of whitespace followed by nothing or by whitespace is
      exactly the leading non-whitespace run. */
  lemma {:induction false} LeadingNonSpacesOver(w: string, x: string)
    requires forall k :: 0 <= k < |w| ==> !IsSpace(w[k])
    requires x == [] || IsSpace(x[0])
    ensures LeadingNonSpaces(w + x) == |w|
    decreases |w|
  {
    if w != [] {
      assert (w + x)[1..] == w[1..] + x;
      LeadingNonSpacesOver(w[1..], x);
    } else {
      assert w + x == x;
    }
  }

  /** Length of the longest run of ASCII digits at the start of `s`. */
  function LeadingDigits(s: string): (k: nat)
    ensures k <= |s|
    ensures forall i :: 0 <= i < k ==> IsDigit(s[i])
    ensures k < |s| ==> !IsDigit(s[k])
  {
    if s == [] || !IsDigit(s[0]) then 0 else 1 + LeadingDigits(s[1..])
  }

  lemma {:induction false} LeadingDigitsOver(d: string, x: string)
    requires forall k :: 0 <= k < |d| ==> IsDigit(d[k])
    requires x == [] || !IsDigit(x[0])
    ensures LeadingDigits(d + x) == |d|
    decreases |d|
  {
    if d != [] {
      assert (d + x)[1..] == d[1..] + x;
      LeadingDigitsOver(d[1..], x);
    } else {
      assert d + x == x;
    }
  }

  /** Index of the first occurrence of `c` in `s`, or `|s|`. */
  function IndexOf(s: string, c: char): (k: nat)
    ensures k <= |s|
    ensures forall i :: 0 <= i < k ==> s[i] != c
    ensures k < |s| ==> s[k] == c
  {
    if s == [] || s[0] == c then 0 else 1 + IndexOf(s[1..], c)
  }

  lemma {:induction false} IndexOfOver(x: string, c: char, rest: string)
    requires forall i :: 0 <= i < |x| ==> x[i] != c
    requires rest != [] && rest[0] == c
    ensures IndexOf(x + rest, c) == |x|
    decreases |x|
  {
    if x != [] {
      assert (x + rest)[1..] == x[1..] + rest;
      IndexOfOver(x[1..], c, rest);
    } else {
      assert x + rest == rest;
    }
  }

  /** Index of the first line boundary in `s`, or `|s|` when there is none. */
  function FirstBreak(s: string): (k: nat)
    ensures k <= |s|
    ensures forall i :: 0 <= i < k ==> !IsLineBreak(s[i])
    ensures k < |s| ==> IsLineBreak(s[k])
  {
    if s == [] || IsLineBreak(s[0]) then 0 else 1 + FirstBreak(s[1..])
  }

  /** No piece contains a line boundary. */
  ghost predicate NoBreaks(lines: seq<string>) {
    forall i, j :: 0 <= i < |lines| && 0 <= j < |lines[i]| ==> !IsLineBreak(lines[i][j])
  }

  /** Python's `s.splitlines()`: the pieces between line boundaries, with
      "\r\n" counted as one boundary and no empty piece after a final one. */
  function SplitLines(s: string): (lines: seq<string>)
    ensures NoBreaks(lines)
    decreases |s|
  {
    if s == [] then []
    else
      var k := FirstBreak(s);
      if k == |s| then [s]
      else
        var width := if s[k] == '\r' && k + 1 < |s| && s[k + 1] == '\n' then 2 else 1;
        [s[..k]] + SplitLines(s[k + width..])
  }

  /** Python's `sep.join(parts)`. */
  function Join(sep: string, parts: seq<string>): string
  {
    if parts == [] then ""
    else if |parts| == 1 then parts[0]
    else parts[0] + sep + Join(sep, parts[1..])
  }

  /** Joining one more part adds the separator and then that part, so the
      parts appear in order, each after a separator. */
  lemma {:induction false} JoinAppend(sep: string, parts: seq<string>, x: string)
    requires parts != []
    ensures Join(sep, parts + [x]) == Join(sep, parts) + sep + x
  {
    if |parts| == 1 {
      assert parts + [x] == [parts[0], x];
      assert [parts[0], x][1..] == [x];
    } else {
      assert (parts + [x])[1..] == parts[1..] + [x];
      JoinAppend(sep, parts[1..], x);
    }
  }

  /** A break-free line followed by "\n" splits off as one piece. */
  lemma SplitLinesCons(p: string, tail: string)
    requires forall j :: 0 <= j < |p| ==> !IsLineBreak(p[j])
    ensures SplitLines(p + "\n" + tail) == [p] + SplitLines(tail)
  {
    var s := p + "\n" + tail;
    var k := FirstBreak(s);
    assert s[|p|] == '\n';
    assert k == |p|;
    assert s[..k] == p;
    assert s[k + 1..] == tail;
  }

  /** A non-empty break-free line splits into itself. */
  lemma SplitLinesSingle(p: string)
    requires p != ""
    requires forall j :: 0 <= j < |p| ==> !IsLineBreak(p[j])
    ensures SplitLines(p) == [p]
  {
    assert FirstBreak(p) == |p|;
  }

  /** Joining break-free lines with "\n" and splitting again gives the lines
      back, except a final empty line, which `splitlines` does not produce. */
  lemma {:induction false} SplitLinesOfJoin(parts: seq<string>)
    requires NoBreaks(parts)
    ensures SplitLines(Join("\n", parts))
            == if parts != [] && parts[|parts| - 1] == "" then parts[..|parts| - 1] else parts
  {
    if parts == [] {
    } else if |parts| == 1 {
      if parts[0] != "" {
        SplitLinesSingle(parts[0]);
      }
    } else {
      var p := parts[0];
      var rest := parts[1..];
      NoBreaksSplit(parts);
      SplitLinesCons(p, Join("\n", rest));
      SplitLinesOfJoin(rest);
      assert parts == [p] + rest;
      if parts[|parts| - 1] == "" {
        assert rest[|rest| - 1] == "";
        assert parts[..|parts| - 1] == [p] + rest[..|rest| - 1];
      }
    }
  }

  lemma NoBreaksSplit(parts: seq<string>)
    requires NoBreaks(parts) && parts != []
    ensures forall j :: 0 <= j < |parts[0]| ==> !IsLineBreak(parts[0][j])
    ensures NoBreaks(parts[1..])
  {
    forall i, j | 0 <= i < |parts[1..]| && 0 <= j < |parts[1..][i]| ensures !IsLineBreak(parts[1..][i][j]) {
      assert parts[1..][i] == parts[i + 1];
    }
  }

  /** `needle` occurs in `haystack` starting at offset `i`. */
  predicate OccursAt(haystack: string, needle: string, i: int) {
    0 <= i && i + |needle| <= |haystack| && haystack[i..i + |needle|] == needle
  }

  /** Python's `needle in haystack` on strings: a substring test. */
  predicate Contains(haystack: string, needle: string) {
    exists i :: 0 <= i <= |haystack| - |needle| && OccursAt(haystack, needle, i)
  }

  /** The empty string occurs in every string. */
  lemma ContainsEmpty(haystack: string)
    ensures Contains(haystack, "")
  {
    assert OccursAt(haystack, "", 0);
  }

  /** Text added before or after cannot remove an occurrence. */
  lemma ContainsInExtension(haystack: string, needle: string, before: string, after: string)
    requires Contains(haystack, needle)
    ensures Contains(before + haystack + after, needle)
  {
    var i :| 0 <= i <= |haystack| - |needle| && OccursAt(haystack, needle, i);
    var big := before + haystack + after;
    assert big[|before| + i..|before| + i + |needle|] == haystack[i..i + |needle|];
    assert OccursAt(big, needle, |before| + i);
  }

  /** Every part can be found in the joined text. */
  lemma {:induction false} JoinContains(sep: string, parts: seq<string>, k: nat)
    requires k < |parts|
    ensures Contains(Join(sep, parts), parts[k])
  {
    if |parts| == 1 || k == 0 {
      assert OccursAt(parts[0], parts[0], 0);
      if |parts| > 1 {
        ContainsInExtension(parts[0], parts[0], "", sep + Join(sep, parts[1..]));
        assert "" + parts[0] + (sep + Join(sep, parts[1..])) == Join(sep, parts);
      }
    } else {
      JoinContains(sep, parts[1..], k - 1);
      ContainsInExtension(Join(sep, parts[1..]), parts[k], parts[0] + sep, "");
      assert parts[0] + sep + Join(sep, parts[1..]) + "" == Join(sep, parts);
    }
  }

  /** Python's `s.startswith(p)`. */
  predicate StartsWith(s: string, p: string) {
    |p| <= |s| && s[..|p|] == p
  }

  /** Python's `s.replace(pat, "")` for a non-empty `pat`: occurrences are
      found left to right, each one removed, and the scan resumes after it. */
  function RemoveAll(s: string, pat: string): (r: string)
    requires pat != []
    ensures |r| <= |s|
    decreases |s|
  {
    if |s| < |pat| then s
    else if s[..|pat|] == pat then RemoveAll(s[|pat|..], pat)
    else [s[0]] + RemoveAll(s[1..], pat)
  }

  /** A stretch that does not contain the first character of `pat` passes
      through `RemoveAll` untouched. */
  lemma {:induction false} RemoveAllKeepsPlain(a: string, rest: string, pat: string)
    requires pat != []
    requires forall k :: 0 <= k < |a| ==> a[k] != pat[0]
    ensures RemoveAll(a + rest, pat) == a + RemoveAll(rest, pat)
    decreases |a|
  {
    if a == [] {
      assert a + rest == rest;
    } else {
      var s := a + rest;
      assert s[0] == a[0] && s[1..] == a[1..] + rest;
      RemoveAllStep(s, pat);
      RemoveAllKeepsPlain(a[1..], rest, pat);
      assert [a[0]] + (a[1..] + RemoveAll(rest, pat)) == a + RemoveAll(rest, pat);
    }
  }

  /** A first character that cannot start `pat` is kept. */
  lemma RemoveAllStep(s: string, pat: string)
    requires pat != [] && s != [] && s[0] != pat[0]
    ensures RemoveAll(s, pat) == [s[0]] + RemoveAll(s[1..], pat)
  {
    if |s| >= |pat| {
      assert s[..|pat|][0] != pat[0];
    } else {
      assert RemoveAll(s[1..], pat) == s[1..];
      assert [s[0]] + s[1..] == s;
    }
  }

  /** An occurrence at the front is dropped. */
  lemma RemoveAllAtFront(rest: string, pat: string)
    requires pat != []
    ensures RemoveAll(pat + rest, pat) == RemoveAll(rest, pat)
  {
    assert (pat + rest)[..|pat|] == pat;
    assert (pat + rest)[|pat|..] == rest;
  }

  /** ASCII case folding, as `re.IGNORECASE` applies it to ASCII letters. */
  function LowerAscii(c: char): (r: char)
    ensures 'A' <= c <= 'Z' ==> r as int == c as int + 32
    ensures !('A' <= c <= 'Z') ==> r == c
  {
    if 'A' <= c <= 'Z' then (c as int + 32) as char else c
  }

  function LowerAsciiString(s: string): (r: string)
    ensures |r| == |s|
  {
    seq(|s|, i requires 0 <= i < |s| => LowerAscii(s[i]))
  }
}

=== FILE: wrappers.dfy ===
/** Optional values and error-carrying results, used wherever the scripts
    either produce nothing (a regular expression that does not match, a
    handler that falls off its loop) or raise. */
module Wrappers {

  datatype Option<+T> = None | Some(value: T)

  datatype Result<+T, +E> = Ok(value: T) | Err(error: E)
}
